=== FILE: README.md ===
# Phabricator project editor, modelled in Dafny

This project models `PhabricatorProjectEditor` from Phabricator (2012): the
editor that applies a batch of project transactions (NAME, STATUS, MEMBERS)
to one project, and the two static helpers that join a user to a project
or remove them from it.

For each transaction, in input order, the editor does three things:

- It captures the old value from the project as it stands. For MEMBERS, this
  means reloading the stored member edges.
- It normalises a MEMBERS new value: `array_filter`, then `array_unique`, then
  `array_values`.
- It drops the transaction when old and new are strictly equal (`!==`).
  Otherwise it applies the effect:
  - NAME renames the project, re-derives the slug and checks uniqueness;
  - STATUS sets the status;
  - MEMBERS replaces the edge lists to add and to remove.

If nothing survives, nothing is written. Otherwise one commit saves three
things: the project row, the member edges (removals, then additions) and one
record per surviving transaction. One feed story is then published per
record. When the commit fails on a duplicate key, the name check is run
again. That check throws the precise collision, or else the original
exception is rethrown.

The model is pure and functional:

- The database, the edge store, the transaction log and the feed are one
  immutable `Store`.
- How the commit ends is an input (`CommitOutcome`):
  - it succeeded, with the id and PHID an insert assigns;
  - it failed on a unique key, together with the rows a re-check then sees;
  - it failed some other way.
- Slug derivation (`setPhrictionSlug`) and the clock (`time()`) are the
  parameters `Env.slugOf` and `Env.now`.
- Errors are values of `Error`, returned in a `Result`:
  - `MissingUser`
  - `UnknownType`
  - `NameCollision`
  - `Database`

Modules:

- `Outcomes`: `Option` and `Result`.
- `PhpArrays`: the PHP array built-ins used on member lists. Falsy strings
  are `""` and `"0"`.
- `Projects`: the entities and the store.
- `NameValidator`: `validateName`.
- `ProjectEditor`: `setTransactionOldValue`, `transactionHasEffect`,
  `applyTransactionEffect`, the loop, the commit, `publishTransactionStory`
  and `applyTransactions`.
- `EditorProperties`: the loop invariant and the theorems about a whole run.
- `Membership`: `applyOneTransaction`, `applyJoinProject` and
  `applyLeaveProject`.

Where the code and the intuitive reading of the editor differ, the model
follows the code:

- MEMBERS old and new values are compared as ordered lists, not as sets.
  A transaction that only reorders the stored members survives, but both of
  its edge lists are empty (`EditorProperties.ReorderedMembersSurvive`).
- The edge lists are assigned, not accumulated. Of several MEMBERS
  transactions in one batch, the last surviving one decides the edges.
- Each MEMBERS transaction reloads the old list from storage. It does not
  see the earlier edits of the same batch.
- A new project gets the acting user as author before the loop. This also
  happens when every transaction is then dropped.

## Model

All source paths are relative to the repository root.

| member | source | states |
|---|---|---|
| PhpArrays.FilterFalsy | src/applications/project/editor/PhabricatorProjectEditor.php:201 | `array_filter` keeps exactly the entries that are not falsy, and never lengthens the list |
| PhpArrays.Unique | src/applications/project/editor/PhabricatorProjectEditor.php:202 | `array_unique` keeps exactly the values of its input, each once |
| PhpArrays.DiffKeys | src/applications/project/editor/PhabricatorProjectEditor.php:227-230 | the `array_fill_keys`/`array_diff_key`/`array_keys` idiom yields the values of the first list that are not in the second, each once |
| PhpArrays.NormalizeMembers | src/applications/project/editor/PhabricatorProjectEditor.php:200-204 | the normalised new member list holds exactly the non-falsy input entries, has no falsy entry and no duplicate |
| PhpArrays.NormalizeOrder | src/applications/project/editor/PhabricatorProjectEditor.php:200-204 | the normalised list is in the order of each value's first occurrence in the input |
| PhpArrays.NormalizeIdempotent | src/applications/project/editor/PhabricatorProjectEditor.php:200-204 | normalising a list without duplicates or falsy entries returns it unchanged |
| PhpArrays.NormalizeSnoc | src/applications/project/editor/PhabricatorProjectEditor.php:200-204 | appending one entry to the input appends it to the normalised list iff it is new and not falsy |
| PhpArrays.NormalizeByScan | src/applications/project/editor/PhabricatorProjectEditor.php:200-204 | a one-pass scan with a seen-set computes exactly the filter-then-unique normalisation |
| PhpArrays.WithoutOrder | src/applications/project/editor/PhabricatorProjectEditor.php:46-48 | unsetting keys keeps the remaining keys in the order they had |
| PhpArrays.WithoutAbsent | src/applications/project/editor/PhabricatorProjectEditor.php:46-48 | unsetting keys that are not present changes nothing |
| Projects.StoredMembers | src/applications/project/editor/PhabricatorProjectEditor.php:194 | the loaded members are the stored edge list of the project's PHID, none for a project without one |
| Projects.EditEdges | src/applications/project/editor/PhabricatorProjectEditor.php:121-127 | removing then adding edges leaves, as a set, the current members minus the removals plus the additions, with no duplicate |
| Projects.SaveRow | src/applications/project/editor/PhabricatorProjectEditor.php:116 | saving inserts a new row for a new project and otherwise overwrites exactly the rows with its id |
| NameValidator.FirstCollision | src/applications/project/editor/PhabricatorProjectEditor.php:164-169 | the first row that is another saved project with the same name or slug; none iff no row collides |
| NameValidator.ValidateName | src/applications/project/editor/PhabricatorProjectEditor.php:154-179 | slug "/" is always rejected; otherwise rejected iff another project (id differs when saved, any saved one when not) has the name or slug, and that rejection is always the too-similar error naming that project |
| ProjectEditor.SetOldValue | src/applications/project/editor/PhabricatorProjectEditor.php:181-210 | NAME/STATUS take the current name/status; MEMBERS takes and attaches the stored members and normalises the new value; an unknown type is an error, the only one; nothing else of the project or transaction changes |
| ProjectEditor.HasEffect | src/applications/project/editor/PhabricatorProjectEditor.php:262-265 | PHP's strict `!==` on the captured old value and the new value: no type juggling, so an integer status never equals a text or a list; two member lists are equal only position by position |
| ProjectEditor.ApplyEffect | src/applications/project/editor/PhabricatorProjectEditor.php:212-235 | NAME sets name and slug and fails iff the name check does; STATUS changes only the status; MEMBERS sets add = new − old and rem = old − new; only MEMBERS touches the edge lists |
| ProjectEditor.Step | src/applications/project/editor/PhabricatorProjectEditor.php:97-107 | a transaction is kept iff its prepared old value differs from its new value; a dropped one changes nothing but the attached members, which a MEMBERS transaction always reloads from the store and NAME or STATUS leave alone; only an unknown type or a rename can fail, and a rename fails exactly when it changes the name and the name check of the renamed project finds a collision, which is the error |
| ProjectEditor.CanFailTail | src/applications/project/editor/PhabricatorProjectEditor.php:97-108 | a batch can throw whenever its tail can |
| ProjectEditor.Fold | src/applications/project/editor/PhabricatorProjectEditor.php:97-108 | the loop aborts only on an unknown type or a rename in the batch; a completed loop saw no unknown type, keeps earlier survivors as a prefix and adds at most one per transaction (the converse directions, that a throw aborts and a transaction with effect is kept, are EditorProperties.StepFailureAborts and EditorProperties.EffectKeptByLoop) |
| ProjectEditor.Start | src/applications/project/editor/PhabricatorProjectEditor.php:91-95 | a project without an id is stamped with the acting user as author; a saved one is untouched |
| ProjectEditor.Prepare | src/applications/project/editor/PhabricatorProjectEditor.php:84-108 | no acting user gives the usage error before anything else; otherwise id and PHID are kept and a new project's author is the actor |
| ProjectEditor.Stamp | src/applications/project/editor/PhabricatorProjectEditor.php:129-133 | each saved record gets the actor as author, the project's id and the next auto-increment id |
| ProjectEditor.PublishStory | src/applications/project/editor/PhabricatorProjectEditor.php:237-260 | a story carries the project PHID, the record id, type, old and new values, the author, the time and related PHIDs [project, author] |
| ProjectEditor.Stories | src/applications/project/editor/PhabricatorProjectEditor.php:136-138 | one story per saved record, in record order |
| ProjectEditor.SavedProject | src/applications/project/editor/PhabricatorProjectEditor.php:116 | a saved project has an id and a PHID, keeps those it had, and nothing else changes |
| ProjectEditor.SaveEdges | src/applications/project/editor/PhabricatorProjectEditor.php:118-127 | only this project's edges change, to the old edges minus removals plus additions; with nothing to do nothing is written |
| ProjectEditor.Persist | src/applications/project/editor/PhabricatorProjectEditor.php:114-138 | a successful commit writes the project row (insert when new, overwrite of its own row otherwise), appends one stamped record per survivor and one matching story per record (the project's PHID, the record id, the actor, the time of the run), and writes the diffed edges |
| ProjectEditor.Commit | src/applications/project/editor/PhabricatorProjectEditor.php:114-146 | success iff the commit succeeded; a duplicate key yields the re-check's collision or else the original exception, never a success; other failures propagate unchanged |
| ProjectEditor.ApplyTransactions | src/applications/project/editor/PhabricatorProjectEditor.php:82-152 | no user: usage error; no survivor: store untouched; survivors need a successful commit; when the commit succeeds, the run fails only if the loop threw, and then the batch holds an unknown type or a rename; records appended with actor and project id; a new project's author is the actor; database errors carry the original exception |
| ProjectEditor.StoriesPerSurvivor | src/applications/project/editor/PhabricatorProjectEditor.php:136-138 | the feed gains exactly one story per saved record, in order, with its type, old and new values, its record id, the actor, the project's PHID, the time of the run, and related PHIDs [project, actor] |
| EditorProperties.LastIndex | src/applications/project/editor/PhabricatorProjectEditor.php:227-230 | the position of the last transaction of a type, which decides the edge lists |
| EditorProperties.KeptConsistent | src/applications/project/editor/PhabricatorProjectEditor.php:97-108 | a kept transaction preserves the loop invariant |
| EditorProperties.StepConsistent | src/applications/project/editor/PhabricatorProjectEditor.php:97-108 | one loop iteration preserves the invariant: survivors have effect; edges, name and status follow the last survivor of their type; a kept rename passed the check |
| EditorProperties.FoldConsistent | src/applications/project/editor/PhabricatorProjectEditor.php:97-108 | the whole loop preserves the invariant |
| EditorProperties.PrepareConsistent | src/applications/project/editor/PhabricatorProjectEditor.php:89-108 | the invariant holds after the loop, relative to the author-stamped project |
| EditorProperties.FinalNameAndStatus | src/applications/project/editor/PhabricatorProjectEditor.php:218-225 | after a run every saved record has effect; the project carries the last surviving NAME (and its slug) and STATUS, or the original ones |
| EditorProperties.AppliedFromPrepared | src/applications/project/editor/PhabricatorProjectEditor.php:110-133 | a successful run returns the loop's project and transactions, saved |
| EditorProperties.CommittedNameIsUnique | src/applications/project/editor/PhabricatorProjectEditor.php:218-221 | after a committed rename, the slug is not "/" and no other saved project has the name or slug |
| EditorProperties.PreparedNameIsUnique | src/applications/project/editor/PhabricatorProjectEditor.php:154-178 | the loop's final name passed the check when a rename survived |
| EditorProperties.CommittedMembers | src/applications/project/editor/PhabricatorProjectEditor.php:118-127 | after a commit, the stored members are, as a set, the new value of the last surviving MEMBERS transaction, or unchanged without one |
| EditorProperties.CommittedProjectRow | src/applications/project/editor/PhabricatorProjectEditor.php:110-116 | a non-empty successful batch writes the project row (insert for a new project, overwrite of its own row otherwise); an empty one leaves the project table unchanged |
| EditorProperties.CommitIsPersist | src/applications/project/editor/PhabricatorProjectEditor.php:110-138 | a non-empty successful batch is exactly the persisted loop result |
| EditorProperties.PersistedMembers | src/applications/project/editor/PhabricatorProjectEditor.php:121-127 | removing old − new and adding new − old from the stored edges yields the new members |
| EditorProperties.DiffRestores | src/applications/project/editor/PhabricatorProjectEditor.php:227-230 | (old minus (old − new)) plus (new − old) equals new, as sets |
| EditorProperties.FoldNoOps | src/applications/project/editor/PhabricatorProjectEditor.php:102-105 | a loop over transactions without effect keeps none and changes nothing but the attached members |
| EditorProperties.NoOpBatch | src/applications/project/editor/PhabricatorProjectEditor.php:110-112 | a batch without effect succeeds whatever the commit would do: no record, no story, no edge, store unchanged |
| EditorProperties.SingleDropped | src/applications/project/editor/PhabricatorProjectEditor.php:102-112 | a one-transaction batch that saves nothing dropped its transaction as without effect and left the store alone |
| EditorProperties.FoldInOrder | src/applications/project/editor/PhabricatorProjectEditor.php:97-108 | the loop's survivors derive from the input, one by one, in input order |
| EditorProperties.InOrderStep | src/applications/project/editor/PhabricatorProjectEditor.php:102-107 | a kept or dropped head extends the in-order derivation |
| EditorProperties.SurvivorsInInputOrder | src/applications/project/editor/PhabricatorProjectEditor.php:129-138 | saved records (and so stories) are the survivors in input order |
| EditorProperties.FoldSplit | src/applications/project/editor/PhabricatorProjectEditor.php:97-108 | the loop over a batch split in two runs over the first part and, unless that threw, continues over the second; an exception ends the loop |
| EditorProperties.ResumeAt | src/applications/project/editor/PhabricatorProjectEditor.php:97-108 | the whole loop's result is the step at transaction k from the state the earlier transactions left, then the loop over the rest |
| EditorProperties.StepFailureAborts | src/applications/project/editor/PhabricatorProjectEditor.php:97-108 | a transaction that throws at its turn makes the whole run fail with that exception: nothing after it runs and nothing is committed |
| EditorProperties.RenameCollisionAborts | src/applications/project/editor/PhabricatorProjectEditor.php:216-221 | a rename to a new name that fails the name check at its turn makes the whole run fail with that collision, whatever follows it |
| EditorProperties.FoldKeepsHead | src/applications/project/editor/PhabricatorProjectEditor.php:102-107 | a first transaction with effect is kept, right after the survivors before it |
| EditorProperties.EffectKeptByLoop | src/applications/project/editor/PhabricatorProjectEditor.php:97-108 | a transaction with effect at its turn is kept by the loop, right after the survivors of the transactions before it |
| EditorProperties.EffectIsSaved | src/applications/project/editor/PhabricatorProjectEditor.php:102-138 | a transaction with effect at its turn gets a record and a story with its type, captured old value and normalised new value, placed after those of the transactions before it |
| EditorProperties.FoldCons | src/applications/project/editor/PhabricatorProjectEditor.php:97-107 | a step that does not throw hands its state on to the loop over the rest of the batch |
| EditorProperties.ReachesNext | src/applications/project/editor/PhabricatorProjectEditor.php:97-107 | the loop that reaches a transaction and does not throw on it reaches the next one in the resulting state |
| EditorProperties.ScanToFailure | src/applications/project/editor/PhabricatorProjectEditor.php:97-108 | a loop that throws somewhere after a reached transaction throws at a particular later transaction, reached without an exception before it |
| EditorProperties.RunFailsAtStep | src/applications/project/editor/PhabricatorProjectEditor.php:97-108 | a run that fails although its commit would succeed fails at one reached transaction: an unknown type, or a rename to a new name whose name check finds a collision; that step's error is the run's |
| EditorProperties.OtherFailurePropagates | src/applications/project/editor/PhabricatorProjectEditor.php:114-146 | a database failure other than a duplicate key, on a non-empty batch, is the run's result, unchanged |
| EditorProperties.DuplicateKeyRechecked | src/applications/project/editor/PhabricatorProjectEditor.php:140-146 | a duplicate-key failure of a non-empty batch always ends in an error: the re-check's collision, else the original exception |
| EditorProperties.ReorderedMembersSurvive | src/applications/project/editor/PhabricatorProjectEditor.php:262-265 | a MEMBERS change that only reorders the stored list survives `!==`, with both edge lists empty |
| EditorProperties.EdgeDiffPartition | src/applications/project/editor/PhabricatorProjectEditor.php:227-230 | add = new − old, rem = old − new, the two are disjoint, and (old − rem) ∪ add = new |
| Membership.ApplyOneTransaction | src/applications/project/editor/PhabricatorProjectEditor.php:57-70 | one transaction applied by a fresh editor acting as the user: never a usage error, at most one record, authored by the user, with the (normalised) requested value |
| Membership.OneTransactionSurvivor | src/applications/project/editor/PhabricatorProjectEditor.php:57-70 | the only record a one-transaction batch can save is its own transaction, prepared |
| Membership.JoinList | src/applications/project/editor/PhabricatorProjectEditor.php:32-33 | the join list normalises to the attached members and the user, without falsy PHIDs |
| Membership.LeaveList | src/applications/project/editor/PhabricatorProjectEditor.php:46-48 | the leave list holds exactly the attached members other than the user, each once, in their first-occurrence order |
| Membership.ApplyJoinProject | src/applications/project/editor/PhabricatorProjectEditor.php:28-40 | join fails only if the commit did; it saves at most one MEMBERS record whose value is members ∪ {user} |
| Membership.ApplyLeaveProject | src/applications/project/editor/PhabricatorProjectEditor.php:42-55 | leave fails only if the commit did; it saves at most one MEMBERS record whose value is members − {user} |
| Membership.JoinStoresMembers | src/applications/project/editor/PhabricatorProjectEditor.php:28-40 | after a join, the project's stored members are, as a set, the attached members plus the user, without falsy PHIDs; a saved project keeps its PHID |
| Membership.LeaveStoresMembers | src/applications/project/editor/PhabricatorProjectEditor.php:42-55 | after a leave, the project's stored members are, as a set, the attached members minus the user, without falsy PHIDs; a saved project keeps its PHID |
| Membership.DroppedMembersEdit | src/applications/project/editor/PhabricatorProjectEditor.php:57-70 | a one-transaction MEMBERS edit dropped as without effect found the stored edges already equal to the normalised list, and the project keeps its PHID |
| Membership.SavedMembersEdit | src/applications/project/editor/PhabricatorProjectEditor.php:57-70 | a saved one-transaction MEMBERS edit writes edges equal, as a set, to the normalised list |
| Membership.OneTransactionStoresMembers | src/applications/project/editor/PhabricatorProjectEditor.php:57-70 | a one-transaction MEMBERS edit leaves the stored members equal, as a set, to the normalised request, whether saved or dropped |
| Membership.JoinByMemberIsNoOp | src/applications/project/editor/PhabricatorProjectEditor.php:28-40 | joining a project one already belongs to saves nothing |
| Membership.LeaveByNonMemberIsNoOp | src/applications/project/editor/PhabricatorProjectEditor.php:42-55 | leaving a project one does not belong to saves nothing |

## Left out

- The application route tables are left out. These are `PhabricatorApplicationPonder`, `PhabricatorApplicationDaemons` and `PhabricatorApplicationApplications`. They only declare URIs and icons.
- Real database I/O is left out: `openTransaction`, `saveTransaction`, the SQL of `loadOneWhere`, and rollback. A commit is all-or-nothing through `CommitOutcome`. The ids and PHIDs an insert assigns are inputs.
- `loadMemberPHIDs` is not part of this model. It is taken to return the edge list stored under the project's PHID, or none when the project has no PHID.
- `PhabricatorEdgeEditor` is modelled only by its effect on the edge map: removals, then additions, no duplicates.
- `PhabricatorFeedStoryPublisher` is modelled as an appended log. A failure while publishing is not modelled.
- `time()` is one `Env.now` per call. Every story of a batch gets the same time.
- The slug algorithm of `setPhrictionSlug` is not shown. It is the parameter `Env.slugOf`. Only its value `"/"` has a fixed meaning.
- ProjectEditor.ApplyTransactions: requires each transaction to carry a new value of its type's shape (text for NAME, integer for STATUS, PHID list for MEMBERS). PHP's dynamic typing is left out, for example a status `"1"` compared with `!==` against `1`.
- ProjectEditor.SetOldValue: has the same well-typed requirement.
- PHP truthiness is modelled only for strings: `""` and `"0"` are falsy.
- Integer-like PHID strings, which PHP would turn into integer array keys, are not modelled. PHIDs never look like integers.
- Name and slug comparisons are exact string equality. MySQL collation (case folding) is left out.
- NameValidator.FirstCollision: returns the first colliding row. When more than one row matches, Lisk's `loadOneWhere` throws a count exception instead; that exception is not modelled.
- The source changes the caller's transaction objects in place: each gets its old value set and a MEMBERS new value normalised, dropped ones included, and saved ones also get author, project id and record id. The model returns only the saved records. The in-place changes to the caller's objects are not modelled.
- An editor instance is used for one `applyTransactions` call only. Edge lists left over from an earlier call on the same instance are not modelled.
- A failed run returns only the error. The in-memory mutations the PHP object keeps after an exception are not modelled.
- `getMemberPHIDs` throws when the members were never attached. Join and leave instead take the project's `memberPHIDs` field as given.
- EditorProperties.CommittedMembers: assumes that a project saved for the first time receives a PHID with no stored edges.
- Membership.JoinStoresMembers: assumes, like CommittedMembers, that a project saved for the first time receives a PHID with no stored edges. A new project whose edit is dropped stays without a PHID, and nothing is stated about its edges.
- Membership.LeaveStoresMembers: has the same assumption.
- Membership.OneTransactionStoresMembers: has the same assumption.
- Membership.SavedMembersEdit: has the same assumption.
- A project's name and status are always set. PHP's `null` for a new project's unset name or status is not modelled. As a result the model drops a NAME transaction to `""` on a new project whose name is `""`. The source keeps that transaction, because `null !== ""`, and runs the name check on it.
- Record ids are assumed to be consecutive after the existing log: the k-th saved record gets `|records| + k + 1`. A real auto-increment can skip values, for example after a rolled-back commit.
- Membership.JoinByMemberIsNoOp: assumes that the attached member list is the stored one and is already normalised.
- Membership.LeaveByNonMemberIsNoOp: has the same assumptions.

=== FILE: editor_properties.dfy ===
/**
 * What one run of the project editor guarantees across the whole batch:
 * the surviving transactions, the final name, status and member edges, the
 * behaviour of batches without effect, and the re-check after a duplicate key.
 */
module EditorProperties {
  import opened Outcomes
  import opened PhpArrays
  import opened Projects
  import opened NameValidator
  import opened ProjectEditor

  /** Position of the last transaction of type `k`, if any. */
  function LastIndex(ts: seq<Transaction>, k: TxType): (r: Option<nat>)
    ensures r.Some? ==> r.value < |ts| && ts[r.value].txType == k
    ensures r.Some? ==> forall i :: r.value < i < |ts| ==> ts[i].txType != k
    ensures r.None? ==> forall i :: 0 <= i < |ts| ==> ts[i].txType != k
  {
    if ts == [] then None
    else if ts[|ts| - 1].txType == k then Some(|ts| - 1)
    else LastIndex(ts[..|ts| - 1], k)
  }

  /** In a one-transaction list of type `k`, the last transaction of type `k` is the first. */
  lemma LastIndexOfOne(ts: seq<Transaction>, k: TxType)
    requires |ts| == 1 && ts[0].txType == k
    ensures LastIndex(ts, k) == Some(0)
  {
  }

  /** Lists that agree on every transaction's type have their last transaction of a type at the same place. */
  lemma LastIndexByTypes(xs: seq<Transaction>, ys: seq<Transaction>, k: TxType)
    requires |xs| == |ys|
    requires forall i :: 0 <= i < |xs| ==> xs[i].txType == ys[i].txType
    ensures LastIndex(xs, k) == LastIndex(ys, k)
  {
    var a, b := LastIndex(xs, k), LastIndex(ys, k);
    if a.Some? && b.Some? {
      assert !(a.value < b.value) && !(b.value < a.value);
    }
  }

  /** The member edges agree with the last surviving MEMBERS transaction (assignment, not accumulation). */
  predicate EdgesFollowLast(p: Pending) {
    match LastIndex(p.effective, TypeMembers)
    case None => p.addEdges == [] && p.remEdges == []
    case Some(i) =>
      var t := p.effective[i];
      && t.oldValue.Phids? && t.newValue.Phids?
      && p.addEdges == DiffKeys(t.newValue.items, t.oldValue.items)
      && p.remEdges == DiffKeys(t.oldValue.items, t.newValue.items)
  }

  /** The name and slug of `current` come from the last NAME transaction of `ts`, or are those of `base`. */
  predicate NameFollowsLast(ts: seq<Transaction>, current: Project, base: Project, slugOf: string -> string) {
    match LastIndex(ts, TypeName)
    case None => current.name == base.name && current.slug == base.slug
    case Some(i) =>
      && ts[i].newValue.Text?
      && current.name == ts[i].newValue.text
      && current.slug == slugOf(current.name)
  }

  /** The status of `current` comes from the last STATUS transaction of `ts`, or is that of `base`. */
  predicate StatusFollowsLast(ts: seq<Transaction>, current: Project, base: Project) {
    match LastIndex(ts, TypeStatus)
    case None => current.status == base.status
    case Some(i) => ts[i].newValue.Code? && current.status == ts[i].newValue.code
  }

  /**
   * The loop state keeps the identity of `base`, and every transaction it
   * kept was prepared, has an effect, and (for MEMBERS) started from the
   * stored member list.
   */
  predicate Grounded(p: Pending, base: Project, store: Store) {
    && p.project.id == base.id
    && p.project.phid == base.phid
    && p.project.authorPHID == base.authorPHID
    && (forall k :: 0 <= k < |p.effective| ==> Prepared(p.effective[k]) && HasEffect(p.effective[k]))
    && (forall k :: 0 <= k < |p.effective| && p.effective[k].txType == TypeMembers ==>
          p.effective[k].oldValue == Phids(StoredMembers(store, base)))
  }

  /** Edges, name and status all follow the last kept transaction of their type. */
  predicate FollowsLast(p: Pending, base: Project, slugOf: string -> string) {
    && EdgesFollowLast(p)
    && NameFollowsLast(p.effective, p.project, base, slugOf)
    && StatusFollowsLast(p.effective, p.project, base)
  }

  /**
   * The loop invariant of `applyTransactions` relative to the project `base`
   * it started from, the store it reads and the slug derivation; a kept
   * rename passed the name check.
   */
  predicate Consistent(p: Pending, base: Project, store: Store, slugOf: string -> string) {
    && Grounded(p, base, store)
    && FollowsLast(p, base, slugOf)
    && (LastIndex(p.effective, TypeName).Some? ==> ValidateName(p.project, store.projects).None?)
  }

  /** Appending a transaction makes it the last of its type and leaves the other types alone. */
  lemma LastIndexSnoc(ts: seq<Transaction>, t: Transaction, k: TxType)
    ensures LastIndex(ts + [t], k) == if t.txType == k then Some(|ts|) else LastIndex(ts, k)
  {
    assert (ts + [t])[..|ts|] == ts;
  }

  /** What one kept transaction does to the loop state, read off `Step`. */
  predicate KeptBy(p: Pending, q: Pending, t: Transaction, store: Store, slugOf: string -> string) {
    && Prepared(t) && HasEffect(t)
    && q.effective == p.effective + [t]
    && q.project.id == p.project.id && q.project.phid == p.project.phid
    && q.project.authorPHID == p.project.authorPHID
    && (t.txType == TypeMembers ==> t.oldValue == Phids(StoredMembers(store, p.project)))
    && (t.txType != TypeMembers ==> q.addEdges == p.addEdges && q.remEdges == p.remEdges)
    && (t.txType == TypeMembers ==>
          q.addEdges == DiffKeys(t.newValue.items, t.oldValue.items)
          && q.remEdges == DiffKeys(t.oldValue.items, t.newValue.items))
    && (t.txType != TypeName ==> q.project.name == p.project.name && q.project.slug == p.project.slug)
    && (t.txType != TypeStatus ==> q.project.status == p.project.status)
    && (t.txType == TypeName ==>
          q.project.name == t.newValue.text && q.project.slug == slugOf(t.newValue.text)
          && ValidateName(q.project, store.projects).None?)
    && (t.txType == TypeStatus ==> q.project.status == t.newValue.code)
  }

  /** A kept transaction keeps the invariant. */
  lemma KeptConsistent(p: Pending, q: Pending, t: Transaction, base: Project, store: Store, slugOf: string -> string)
    requires Consistent(p, base, store, slugOf)
    requires KeptBy(p, q, t, store, slugOf)
    ensures Consistent(q, base, store, slugOf)
  {
    KeptEffective(p, q, t, base, store, slugOf);
    KeptFollowsLast(p, q, t, base, store, slugOf);
    LastIndexSnoc(p.effective, t, TypeName);
    if t.txType != TypeName {
      ValidateNameDependsOnKey(q.project, p.project, store.projects);
    }
  }

  /** A kept transaction keeps every saved transaction prepared, with effect, and MEMBERS ones based on the stored list. */
  lemma KeptEffective(p: Pending, q: Pending, t: Transaction, base: Project, store: Store, slugOf: string -> string)
    requires Consistent(p, base, store, slugOf)
    requires KeptBy(p, q, t, store, slugOf)
    ensures forall k :: 0 <= k < |q.effective| ==> Prepared(q.effective[k]) && HasEffect(q.effective[k])
    ensures forall k :: 0 <= k < |q.effective| && q.effective[k].txType == TypeMembers ==>
      q.effective[k].oldValue == Phids(StoredMembers(store, base))
  {
    assert forall k :: 0 <= k < |p.effective| ==> q.effective[k] == p.effective[k];
    assert q.effective[|p.effective|] == t;
  }

  /** A kept transaction keeps edges, name and status following the last transaction of their type. */
  lemma KeptFollowsLast(p: Pending, q: Pending, t: Transaction, base: Project, store: Store, slugOf: string -> string)
    requires Consistent(p, base, store, slugOf)
    requires KeptBy(p, q, t, store, slugOf)
    ensures EdgesFollowLast(q)
    ensures NameFollowsLast(q.effective, q.project, base, slugOf) && StatusFollowsLast(q.effective, q.project, base)
  {
    LastIndexSnoc(p.effective, t, TypeMembers);
    LastIndexSnoc(p.effective, t, TypeName);
    LastIndexSnoc(p.effective, t, TypeStatus);
    assert forall k :: 0 <= k < |p.effective| ==> q.effective[k] == p.effective[k];
    assert q.effective[|p.effective|] == t;
  }

  /** `Step` on a transaction with effect produces a state `KeptBy` describes. */
  lemma StepKeeps(env: Env, store: Store, p: Pending, tx: Transaction)
    requires WellTyped(tx)
    requires Step(env, store, p, tx).Ok?
    requires HasEffect(PreparedTx(p.project, store, tx))
    ensures KeptBy(p, Step(env, store, p, tx).value, PreparedTx(p.project, store, tx), store, env.slugOf)
  {
    var t := PreparedTx(p.project, store, tx);
    var p' := p.(project := SetOldValue(p.project, store, tx).value.0);
    var e := ApplyEffect(env, store.projects, p', t);
    assert Step(env, store, p, tx) == Ok(e.value.(effective := e.value.effective + [t]));
  }

  /** One loop iteration keeps the invariant. */
  lemma StepConsistent(env: Env, store: Store, base: Project, p: Pending, tx: Transaction)
    requires WellTyped(tx)
    requires Consistent(p, base, store, env.slugOf)
    ensures Step(env, store, p, tx).Ok? ==> Consistent(Step(env, store, p, tx).value, base, store, env.slugOf)
  {
    var r := Step(env, store, p, tx);
    if r.Ok? {
      var t := PreparedTx(p.project, store, tx);
      if HasEffect(t) {
        StepKeeps(env, store, p, tx);
        KeptConsistent(p, r.value, t, base, store, env.slugOf);
      } else {
        ValidateNameDependsOnKey(r.value.project, p.project, store.projects);
      }
    }
  }

  /** The whole loop keeps the invariant. */
  lemma {:induction false} FoldConsistent(env: Env, store: Store, base: Project, p: Pending, txs: seq<Transaction>)
    requires forall k :: 0 <= k < |txs| ==> WellTyped(txs[k])
    requires Consistent(p, base, store, env.slugOf)
    ensures Fold(env, store, p, txs).Ok? ==> Consistent(Fold(env, store, p, txs).value, base, store, env.slugOf)
    decreases |txs|
  {
    if txs != [] {
      StepConsistent(env, store, base, p, txs[0]);
      var s := Step(env, store, p, txs[0]);
      if s.Ok? {
        assert Fold(env, store, p, txs) == Fold(env, store, s.value, txs[1..]);
        FoldConsistent(env, store, base, s.value, txs[1..]);
      }
    }
  }

  /** The invariant holds of whatever the loop of `applyTransactions` ends with. */
  lemma PrepareConsistent(env: Env, actor: Option<Phid>, project: Project, txs: seq<Transaction>, store: Store)
    requires forall k :: 0 <= k < |txs| ==> WellTyped(txs[k])
    requires Prepare(env, actor, project, txs, store).Ok?
    ensures Consistent(Prepare(env, actor, project, txs, store).value, Start(actor.value, project).project, store, env.slugOf)
  {
    var start := Start(actor.value, project);
    FoldConsistent(env, store, start.project, start, txs);
  }

  /**
   * Every saved record has an effect, and after a successful run the project
   * carries the new value of the last surviving NAME transaction (with the
   * slug derived from it) and of the last surviving STATUS transaction, or
   * its original name, slug and status where none survived.
   */
  lemma FinalNameAndStatus(env: Env, actor: Option<Phid>, project: Project, txs: seq<Transaction>,
                           store: Store, outcome: CommitOutcome, a: Applied)
    requires forall k :: 0 <= k < |txs| ==> WellTyped(txs[k])
    requires ApplyTransactions(env, actor, project, txs, store, outcome) == Ok(a)
    ensures forall k :: 0 <= k < |a.effective| ==> HasEffect(a.effective[k])
    ensures NameFollowsLast(a.effective, a.project, project, env.slugOf)
    ensures StatusFollowsLast(a.effective, a.project, project)
  {
    AppliedFromPrepared(env, actor, project, txs, store, outcome, a);
    PreparedNameAndStatus(env, actor, project, txs, store);
    FollowsSaved(Prepare(env, actor, project, txs, store).value, a, project, env.slugOf);
  }

  /** Every transaction of `ts` has an effect, and `current` carries the name and status they set. */
  predicate FollowsAll(ts: seq<Transaction>, current: Project, base: Project, slugOf: string -> string) {
    && (forall k :: 0 <= k < |ts| ==> HasEffect(ts[k]))
    && NameFollowsLast(ts, current, base, slugOf)
    && StatusFollowsLast(ts, current, base)
  }

  /** The loop's final state has effectful transactions and the name and status they set. */
  lemma PreparedNameAndStatus(env: Env, actor: Option<Phid>, project: Project, txs: seq<Transaction>, store: Store)
    requires forall k :: 0 <= k < |txs| ==> WellTyped(txs[k])
    requires Prepare(env, actor, project, txs, store).Ok?
    ensures var p := Prepare(env, actor, project, txs, store).value;
      FollowsAll(p.effective, p.project, project, env.slugOf)
  {
    PrepareConsistent(env, actor, project, txs, store);
  }

  /** Saving keeps what the loop's transactions say about the name and status. */
  lemma FollowsSaved(p: Pending, a: Applied, base: Project, slugOf: string -> string)
    requires SavedFrom(p, a)
    requires FollowsAll(p.effective, p.project, base, slugOf)
    ensures FollowsAll(a.effective, a.project, base, slugOf)
  {
    SavedLastIndex(p, a, TypeName);
    SavedLastIndex(p, a, TypeStatus);
  }

  /** `a` is the loop state `p` once saved: the same project up to its id and PHID, and the same transactions. */
  predicate SavedFrom(p: Pending, a: Applied) {
    && a.project == p.project.(id := a.project.id, phid := a.project.phid)
    && |a.effective| == |p.effective|
    && forall k :: 0 <= k < |a.effective| ==>
         && a.effective[k].txType == p.effective[k].txType
         && a.effective[k].oldValue == p.effective[k].oldValue
         && a.effective[k].newValue == p.effective[k].newValue
  }

  /** A successful run returns the project and the records of its loop, saved or (for an empty batch) as they were. */
  lemma AppliedFromPrepared(env: Env, actor: Option<Phid>, project: Project, txs: seq<Transaction>,
                            store: Store, outcome: CommitOutcome, a: Applied)
    requires forall k :: 0 <= k < |txs| ==> WellTyped(txs[k])
    requires ApplyTransactions(env, actor, project, txs, store, outcome) == Ok(a)
    ensures Prepare(env, actor, project, txs, store).Ok?
    ensures SavedFrom(Prepare(env, actor, project, txs, store).value, a)
  {
  }

  /** Saving keeps the position of the last transaction of each type. */
  lemma SavedLastIndex(p: Pending, a: Applied, k: TxType)
    requires SavedFrom(p, a)
    ensures LastIndex(a.effective, k) == LastIndex(p.effective, k)
  {
    LastIndexByTypes(p.effective, a.effective, k);
  }

  /**
   * A committed rename is unique against the project table it was checked
   * against: its slug is not the root slug, and no other saved project has
   * the same name or slug.
   */
  lemma CommittedNameIsUnique(env: Env, actor: Option<Phid>, project: Project, txs: seq<Transaction>,
                              store: Store, outcome: CommitOutcome, a: Applied)
    requires forall k :: 0 <= k < |txs| ==> WellTyped(txs[k])
    requires ApplyTransactions(env, actor, project, txs, store, outcome) == Ok(a)
    ensures LastIndex(a.effective, TypeName).Some? ==>
      && a.project.slug != RootSlug
      && forall row :: row in store.projects && row.id.Some? && row.id != project.id ==>
           row.name != a.project.name && row.slug != a.project.slug
  {
    AppliedFromPrepared(env, actor, project, txs, store, outcome, a);
    SavedLastIndex(Prepare(env, actor, project, txs, store).value, a, TypeName);
    PreparedNameIsUnique(env, actor, project, txs, store);
  }

  /** The loop's final name passed the check whenever a NAME transaction survived. */
  lemma PreparedNameIsUnique(env: Env, actor: Option<Phid>, project: Project, txs: seq<Transaction>, store: Store)
    requires forall k :: 0 <= k < |txs| ==> WellTyped(txs[k])
    requires Prepare(env, actor, project, txs, store).Ok?
    ensures var p := Prepare(env, actor, project, txs, store).value;
      LastIndex(p.effective, TypeName).Some? ==>
        && p.project.slug != RootSlug
        && forall row :: row in store.projects && row.id.Some? && row.id != project.id ==>
             row.name != p.project.name && row.slug != p.project.slug
  {
    var p := Prepare(env, actor, project, txs, store).value;
    if LastIndex(p.effective, TypeName).Some? {
      PrepareConsistent(env, actor, project, txs, store);
      ConsistentValidated(p, Start(actor.value, project).project, store, env.slugOf);
      UniqueAgainst(p.project, project.id, store.projects);
    }
  }

  /** Under the invariant, a project renamed in the loop has passed the name check. */
  lemma ConsistentValidated(p: Pending, base: Project, store: Store, slugOf: string -> string)
    requires Consistent(p, base, store, slugOf)
    requires LastIndex(p.effective, TypeName).Some?
    ensures ValidateName(p.project, store.projects).None?
  {
  }

  /** A name that passes the check collides with no saved project other than itself. */
  lemma UniqueAgainst(edited: Project, id: Option<ProjectId>, rows: seq<Project>)
    requires edited.id == id
    requires ValidateName(edited, rows).None?
    ensures edited.slug != RootSlug
    ensures forall row :: row in rows && row.id.Some? && row.id != id ==>
      row.name != edited.name && row.slug != edited.slug
  {
    forall row | row in rows && row.id.Some? && row.id != id
      ensures row.name != edited.name && row.slug != edited.slug
    {
      assert !Collides(row, edited.id, edited.name, edited.slug);
    }
  }

  /**
   * After a successful commit the project's stored members are, as a set,
   * exactly the normalised new value of the last surviving MEMBERS
   * transaction; with none, they are untouched. A project saved for the
   * first time is assumed to receive a PHID that has no edges yet.
   */
  lemma CommittedMembers(env: Env, actor: Option<Phid>, project: Project, txs: seq<Transaction>,
                         store: Store, outcome: CommitOutcome, a: Applied)
    requires forall k :: 0 <= k < |txs| ==> WellTyped(txs[k])
    requires ApplyTransactions(env, actor, project, txs, store, outcome) == Ok(a)
    requires outcome.Committed? && (project.phid.None? ==> outcome.assignedPhid !in store.edges)
    ensures a.effective != [] ==> a.project.phid.Some?
    ensures a.project.phid.Some? ==>
      match LastIndex(a.effective, TypeMembers)
      case None => EdgesOf(a.store.edges, a.project.phid.value) == EdgesOf(store.edges, a.project.phid.value)
      case Some(i) =>
        && a.effective[i].newValue.Phids?
        && forall x :: x in EdgesOf(a.store.edges, a.project.phid.value) <==> x in a.effective[i].newValue.items
  {
    if a.effective != [] {
      CommitIsPersist(env, actor, project, txs, store, outcome, a);
      PrepareConsistent(env, actor, project, txs, store);
      PersistedMembers(actor.value, store, Prepare(env, actor, project, txs, store).value,
                       Start(actor.value, project).project, env.slugOf,
                       outcome.assignedId, outcome.assignedPhid, env.now);
    }
  }

  /** A non-empty committed batch is the persisted result of the loop. */
  lemma CommitIsPersist(env: Env, actor: Option<Phid>, project: Project, txs: seq<Transaction>,
                        store: Store, outcome: CommitOutcome, a: Applied)
    requires forall k :: 0 <= k < |txs| ==> WellTyped(txs[k])
    requires ApplyTransactions(env, actor, project, txs, store, outcome) == Ok(a)
    requires a.effective != []
    ensures actor.Some? && outcome.Committed? && Prepare(env, actor, project, txs, store).Ok?
    ensures a == Persist(actor.value, store, Prepare(env, actor, project, txs, store).value,
                         outcome.assignedId, outcome.assignedPhid, env.now)
  {
  }

  /**
   * A non-empty successful batch writes the edited project row: a project
   * without an id is inserted, a saved one overwrites its own rows.
   */
  lemma CommittedProjectRow(env: Env, actor: Option<Phid>, project: Project, txs: seq<Transaction>,
                            store: Store, outcome: CommitOutcome, a: Applied)
    requires forall k :: 0 <= k < |txs| ==> WellTyped(txs[k])
    requires ApplyTransactions(env, actor, project, txs, store, outcome) == Ok(a)
    ensures a.effective != [] ==> a.store.projects == SaveRow(store.projects, a.project, project.id.None?)
    ensures a.effective == [] ==> a.store.projects == store.projects
  {
    if a.effective != [] {
      CommitIsPersist(env, actor, project, txs, store, outcome, a);
    }
  }

  /** The member edges a commit writes, under the loop invariant. */
  lemma PersistedMembers(user: Phid, store: Store, p: Pending, base: Project, slugOf: string -> string,
                         assignedId: ProjectId, assignedPhid: Phid, now: int)
    requires Consistent(p, base, store, slugOf)
    requires base.phid.None? ==> assignedPhid !in store.edges
    ensures var a := Persist(user, store, p, assignedId, assignedPhid, now);
      match LastIndex(a.effective, TypeMembers)
      case None => EdgesOf(a.store.edges, a.project.phid.value) == EdgesOf(store.edges, a.project.phid.value)
      case Some(i) =>
        && a.effective[i].newValue.Phids?
        && forall x :: x in EdgesOf(a.store.edges, a.project.phid.value) <==> x in a.effective[i].newValue.items
  {
    var a := Persist(user, store, p, assignedId, assignedPhid, now);
    LastIndexByTypes(p.effective, a.effective, TypeMembers);
    var phid := a.project.phid.value;
    var before := EdgesOf(store.edges, phid);
    assert before == StoredMembers(store, base);
    match LastIndex(p.effective, TypeMembers)
    case None =>
    case Some(i) =>
      DiffRestores(before, p.effective[i].newValue.items);
  }

  /** Removing `before \ after` from `before` and adding `after \ before` gives `after`, as sets. */
  lemma DiffRestores(before: seq<Phid>, after: seq<Phid>)
    ensures forall x :: (x in before && x !in DiffKeys(before, after)) || x in DiffKeys(after, before) <==> x in after
  {
  }

  /** A transaction that, once its old value is captured against `project`, has no effect. */
  predicate IsNoOp(project: Project, store: Store, tx: Transaction)
    requires WellTyped(tx)
  {
    !tx.txType.TypeOther? && !HasEffect(PreparedTx(project, store, tx))
  }

  /** A loop over transactions that are all without effect keeps nothing and changes nothing but the attached members. */
  lemma {:induction false} FoldNoOps(env: Env, store: Store, p: Pending, txs: seq<Transaction>)
    requires forall k :: 0 <= k < |txs| ==> WellTyped(txs[k]) && IsNoOp(p.project, store, txs[k])
    ensures var r := Fold(env, store, p, txs);
      && r.Ok?
      && r.value == p.(project := p.project.(memberPHIDs := r.value.project.memberPHIDs))
    decreases |txs|
  {
    if txs != [] {
      var q := Step(env, store, p, txs[0]).value;
      assert q == p.(project := p.project.(memberPHIDs := q.project.memberPHIDs));
      forall k | 0 <= k < |txs[1..]|
        ensures WellTyped(txs[1..][k]) && IsNoOp(q.project, store, txs[1..][k])
      {
        assert txs[1..][k] == txs[k + 1];
      }
      FoldNoOps(env, store, q, txs[1..]);
    }
  }

  /**
   * A batch in which every transaction's new value equals the current one
   * succeeds without touching the store: no save, no edge edit, no record,
   * no story, and the project keeps its name, slug and status.
   */
  lemma NoOpBatch(env: Env, actor: Option<Phid>, project: Project, txs: seq<Transaction>,
                  store: Store, outcome: CommitOutcome)
    requires actor.Some?
    requires forall k :: 0 <= k < |txs| ==> WellTyped(txs[k]) && IsNoOp(project, store, txs[k])
    ensures var r := ApplyTransactions(env, actor, project, txs, store, outcome);
      && r.Ok? && r.value.effective == [] && r.value.store == store
      && r.value.project.name == project.name
      && r.value.project.slug == project.slug
      && r.value.project.status == project.status
  {
    var start := Start(actor.value, project);
    forall k | 0 <= k < |txs|
      ensures WellTyped(txs[k]) && IsNoOp(start.project, store, txs[k])
    {
      assert start.project == project.(authorPHID := start.project.authorPHID);
    }
    FoldNoOps(env, store, start, txs);
  }

  /** A one-transaction batch that saves nothing dropped its transaction as having no effect. */
  lemma SingleDropped(env: Env, actor: Option<Phid>, project: Project, tx: Transaction,
                      store: Store, outcome: CommitOutcome, a: Applied)
    requires WellTyped(tx)
    requires ApplyTransactions(env, actor, project, [tx], store, outcome) == Ok(a)
    requires a.effective == []
    ensures a.store == store && a.project.phid == project.phid
    ensures IsNoOp(project, store, tx)
  {
    var start := Start(actor.value, project);
    assert start.project == project.(authorPHID := start.project.authorPHID);
    assert Fold(env, store, start, [tx]) == Prepare(env, actor, project, [tx], store);
    assert [tx][1..] == [];
    var q := Step(env, store, start, tx).value;
    assert Fold(env, store, q, []) == Ok(q);
  }

  /** A saved transaction is `tx` after old-value capture: same type, new value normalised for MEMBERS. */
  predicate Derives(t: Transaction, tx: Transaction) {
    && t.txType == tx.txType
    && t.newValue == (if tx.txType == TypeMembers && tx.newValue.Phids?
                      then Phids(NormalizeMembers(tx.newValue.items)) else tx.newValue)
  }

  /** `ts` derives, one by one and in order, from a subsequence of `txs`. */
  predicate DerivedInOrder(ts: seq<Transaction>, txs: seq<Transaction>)
    decreases |txs|
  {
    if ts == [] then true
    else if txs == [] then false
    else (Derives(ts[0], txs[0]) && DerivedInOrder(ts[1..], txs[1..])) || DerivedInOrder(ts, txs[1..])
  }

  /** Old-value capture derives the transaction it prepares. */
  lemma PreparedDerives(project: Project, store: Store, tx: Transaction)
    requires WellTyped(tx) && !tx.txType.TypeOther?
    ensures Derives(PreparedTx(project, store, tx), tx)
  {
  }

  /** A kept transaction in front of a derived tail derives from the longer input. */
  lemma DerivedCons(t: Transaction, rest: seq<Transaction>, txs: seq<Transaction>)
    requires txs != [] && Derives(t, txs[0]) && DerivedInOrder(rest, txs[1..])
    ensures DerivedInOrder([t] + rest, txs)
  {
    assert ([t] + rest)[1..] == rest;
  }

  /** The survivors of the loop come from the input in input order. */
  lemma {:induction false} FoldInOrder(env: Env, store: Store, p: Pending, txs: seq<Transaction>)
    requires forall k :: 0 <= k < |txs| ==> WellTyped(txs[k])
    ensures var r := Fold(env, store, p, txs);
      r.Ok? ==> DerivedInOrder(r.value.effective[|p.effective|..], txs)
    decreases |txs|
  {
    var r := Fold(env, store, p, txs);
    if txs != [] && r.Ok? {
      var q := Step(env, store, p, txs[0]).value;
      assert r == Fold(env, store, q, txs[1..]);
      FoldInOrder(env, store, q, txs[1..]);
      var t := PreparedTx(p.project, store, txs[0]);
      PreparedDerives(p.project, store, txs[0]);
      InOrderStep(p.effective, q.effective, r.value.effective, t, HasEffect(t), txs);
    }
  }

  /** One loop iteration, kept or dropped, extends the order-preserving derivation by the input's head. */
  lemma InOrderStep(before: seq<Transaction>, after: seq<Transaction>, all: seq<Transaction>,
                    t: Transaction, kept: bool, txs: seq<Transaction>)
    requires txs != [] && Derives(t, txs[0])
    requires kept ==> after == before + [t]
    requires !kept ==> after == before
    requires |after| <= |all| && all[..|after|] == after
    requires DerivedInOrder(all[|after|..], txs[1..])
    ensures DerivedInOrder(all[|before|..], txs)
  {
    var rest := all[|after|..];
    if kept {
      assert all[|before|..] == [t] + rest;
      DerivedCons(t, rest, txs);
    }
  }

  /** Order-preserving derivation depends only on the types and new values of the derived list. */
  lemma {:induction false} DerivedInOrderByValues(xs: seq<Transaction>, ys: seq<Transaction>, txs: seq<Transaction>)
    requires |xs| == |ys|
    requires forall i :: 0 <= i < |xs| ==> xs[i].txType == ys[i].txType && xs[i].newValue == ys[i].newValue
    requires DerivedInOrder(xs, txs)
    ensures DerivedInOrder(ys, txs)
    decreases |txs|
  {
    if xs != [] {
      if Derives(xs[0], txs[0]) && DerivedInOrder(xs[1..], txs[1..]) {
        DerivedInOrderByValues(xs[1..], ys[1..], txs[1..]);
      } else {
        DerivedInOrderByValues(xs, ys, txs[1..]);
      }
    }
  }

  /** The saved records are the surviving transactions in input order. */
  lemma SurvivorsInInputOrder(env: Env, actor: Option<Phid>, project: Project, txs: seq<Transaction>,
                              store: Store, outcome: CommitOutcome)
    requires forall k :: 0 <= k < |txs| ==> WellTyped(txs[k])
    requires ApplyTransactions(env, actor, project, txs, store, outcome).Ok?
    ensures DerivedInOrder(ApplyTransactions(env, actor, project, txs, store, outcome).value.effective, txs)
  {
    var start := Start(actor.value, project);
    FoldInOrder(env, store, start, txs);
    var p := Prepare(env, actor, project, txs, store).value;
    assert p.effective[|start.effective|..] == p.effective;
    var a := ApplyTransactions(env, actor, project, txs, store, outcome).value;
    if p.effective != [] {
      DerivedInOrderByValues(p.effective, a.effective, txs);
    }
  }

  /** Running the loop over `a + b` runs it over `a`, then, unless that threw, over `b`. */
  lemma {:induction false} FoldSplit(env: Env, store: Store, p: Pending, a: seq<Transaction>, b: seq<Transaction>)
    requires forall k :: 0 <= k < |a| ==> WellTyped(a[k])
    requires forall k :: 0 <= k < |b| ==> WellTyped(b[k])
    ensures forall k :: 0 <= k < |a + b| ==> WellTyped((a + b)[k])
    ensures Fold(env, store, p, a + b) ==
      match Fold(env, store, p, a)
      case Err(e) => Err(e)
      case Ok(q) => Fold(env, store, q, b)
    decreases |a|
  {
    if a == [] {
      assert a + b == b;
    } else {
      assert (a + b)[0] == a[0];
      assert (a + b)[1..] == a[1..] + b;
      match Step(env, store, p, a[0])
      case Err(_) =>
      case Ok(p') => FoldSplit(env, store, p', a[1..], b);
    }
  }

  /**
   * The loop reaches `txs[k]` in state `q` when the transactions before it
   * ran without an exception and left `q`.
   */
  predicate ReachesWith(env: Env, store: Store, user: Phid, project: Project, txs: seq<Transaction>, k: nat, q: Pending)
    requires forall i :: 0 <= i < |txs| ==> WellTyped(txs[i])
    requires k < |txs|
  {
    Fold(env, store, Start(user, project), txs[..k]) == Ok(q)
  }

  /** The loop from the state at `txs[k]` over the rest of the batch ends where the whole loop ends. */
  lemma ResumeAt(env: Env, store: Store, user: Phid, project: Project, txs: seq<Transaction>, k: nat, q: Pending)
    requires forall i :: 0 <= i < |txs| ==> WellTyped(txs[i])
    requires k < |txs| && ReachesWith(env, store, user, project, txs, k, q)
    ensures Fold(env, store, Start(user, project), txs) ==
      match Step(env, store, q, txs[k])
      case Err(e) => Err(e)
      case Ok(q') => Fold(env, store, q', txs[k + 1..])
  {
    assert txs == txs[..k] + txs[k..];
    FoldSplit(env, store, Start(user, project), txs[..k], txs[k..]);
    assert txs[k..][0] == txs[k] && txs[k..][1..] == txs[k + 1..];
  }

  /**
   * A transaction that throws at its turn aborts the whole run with its
   * exception: the transactions after it do not run and nothing is saved.
   */
  lemma StepFailureAborts(env: Env, actor: Option<Phid>, project: Project, txs: seq<Transaction>,
                          store: Store, outcome: CommitOutcome, k: nat, q: Pending)
    requires forall i :: 0 <= i < |txs| ==> WellTyped(txs[i])
    requires actor.Some? && k < |txs| && ReachesWith(env, store, actor.value, project, txs, k, q)
    requires Step(env, store, q, txs[k]).Err?
    ensures ApplyTransactions(env, actor, project, txs, store, outcome) == Err(Step(env, store, q, txs[k]).error)
  {
    ResumeAt(env, store, actor.value, project, txs, k, q);
  }

  /** A step that does not throw hands its state on to the loop over the rest of the batch. */
  lemma FoldCons(env: Env, store: Store, p: Pending, p': Pending, tx: Transaction, rest: seq<Transaction>)
    requires WellTyped(tx) && forall i :: 0 <= i < |rest| ==> WellTyped(rest[i])
    requires Step(env, store, p, tx) == Ok(p')
    ensures forall i :: 0 <= i < |[tx] + rest| ==> WellTyped(([tx] + rest)[i])
    ensures Fold(env, store, p, [tx] + rest) == Fold(env, store, p', rest)
  {
    assert ([tx] + rest)[0] == tx && ([tx] + rest)[1..] == rest;
  }

  /** A prefix extended by the next element is the longer prefix. */
  lemma PrefixSnoc<T>(s: seq<T>, j: nat)
    requires j < |s|
    ensures s[..j] + [s[j]] == s[..j + 1]
  {
  }

  /** A suffix is its first element followed by the next suffix. */
  lemma SuffixCons<T>(s: seq<T>, j: nat)
    requires j < |s|
    ensures [s[j]] + s[j + 1..] == s[j..]
  {
  }

  /** The loop that reaches `txs[j]` in state `r` and gets `r'` from it reaches the next transaction in state `r'`. */
  lemma ReachesNext(env: Env, store: Store, user: Phid, project: Project, txs: seq<Transaction>,
                    j: nat, r: Pending, r': Pending)
    requires forall i :: 0 <= i < |txs| ==> WellTyped(txs[i])
    requires j < |txs| && ReachesWith(env, store, user, project, txs, j, r)
    requires Step(env, store, r, txs[j]) == Ok(r')
    ensures Fold(env, store, Start(user, project), txs[..j + 1]) == Ok(r')
  {
    FoldSplit(env, store, Start(user, project), txs[..j], [txs[j]]);
    PrefixSnoc(txs, j);
    FoldCons(env, store, r, r', txs[j], []);
    assert [txs[j]] + [] == [txs[j]];
  }

  /**
   * Scanning forward from a reached transaction whose remaining loop throws
   * finds the transaction that throws, reached without an exception before it.
   */
  lemma {:induction false} ScanToFailure(env: Env, store: Store, user: Phid, project: Project, txs: seq<Transaction>,
                                         j: nat, r: Pending)
    returns (k: nat, q: Pending)
    requires forall i :: 0 <= i < |txs| ==> WellTyped(txs[i])
    requires j < |txs| && ReachesWith(env, store, user, project, txs, j, r)
    requires Fold(env, store, r, txs[j..]).Err?
    ensures k < |txs| && ReachesWith(env, store, user, project, txs, k, q)
    ensures Step(env, store, q, txs[k]).Err?
    decreases |txs| - j
  {
    match Step(env, store, r, txs[j])
    case Err(_) =>
      k, q := j, r;
    case Ok(r') =>
      FoldCons(env, store, r, r', txs[j], txs[j + 1..]);
      SuffixCons(txs, j);
      ReachesNext(env, store, user, project, txs, j, r, r');
      k, q := ScanToFailure(env, store, user, project, txs, j + 1, r');
  }

  /**
   * A run that fails although its commit would succeed fails at one
   * transaction the loop reaches: one of unknown type, or a rename with
   * effect whose name check finds a collision, which is the run's error.
   */
  lemma RunFailsAtStep(env: Env, actor: Option<Phid>, project: Project, txs: seq<Transaction>,
                       store: Store, outcome: CommitOutcome)
    returns (k: nat, q: Pending)
    requires forall i :: 0 <= i < |txs| ==> WellTyped(txs[i])
    requires actor.Some? && outcome.Committed?
    requires ApplyTransactions(env, actor, project, txs, store, outcome).Err?
    ensures k < |txs| && ReachesWith(env, store, actor.value, project, txs, k, q)
    ensures Step(env, store, q, txs[k]).Err?
    ensures ApplyTransactions(env, actor, project, txs, store, outcome) == Err(Step(env, store, q, txs[k]).error)
    ensures || txs[k].txType.TypeOther?
            || (var renamed := q.project.(name := txs[k].newValue.text, slug := env.slugOf(txs[k].newValue.text));
                && txs[k].txType == TypeName
                && txs[k].newValue.text != q.project.name
                && ValidateName(renamed, store.projects).Some?)
  {
    var start := Start(actor.value, project);
    assert Prepare(env, actor, project, txs, store) == Fold(env, store, start, txs);
    assert txs[..0] == [] && txs[0..] == txs;
    k, q := ScanToFailure(env, store, actor.value, project, txs, 0, start);
    StepFailureAborts(env, actor, project, txs, store, outcome, k, q);
  }

  /**
   * A rename with effect whose name check fails at its turn makes the whole
   * run fail with that collision, whatever follows it in the batch.
   */
  lemma RenameCollisionAborts(env: Env, actor: Option<Phid>, project: Project, txs: seq<Transaction>,
                              store: Store, outcome: CommitOutcome, k: nat, q: Pending)
    requires forall i :: 0 <= i < |txs| ==> WellTyped(txs[i])
    requires actor.Some? && k < |txs| && ReachesWith(env, store, actor.value, project, txs, k, q)
    requires txs[k].txType == TypeName && txs[k].newValue.text != q.project.name
    requires ValidateName(q.project.(name := txs[k].newValue.text, slug := env.slugOf(txs[k].newValue.text)),
                          store.projects).Some?
    ensures ApplyTransactions(env, actor, project, txs, store, outcome) ==
      Err(NameCollision(ValidateName(q.project.(name := txs[k].newValue.text, slug := env.slugOf(txs[k].newValue.text)),
                                     store.projects).value))
  {
    var t := PreparedTx(q.project, store, txs[k]);
    assert t.oldValue == Text(q.project.name) && t.newValue == txs[k].newValue;
    StepFailureAborts(env, actor, project, txs, store, outcome, k, q);
  }

  /** A loop whose first transaction has effect keeps it right after the survivors before it. */
  lemma {:induction false} FoldKeepsHead(env: Env, store: Store, q: Pending, txs: seq<Transaction>)
    requires forall i :: 0 <= i < |txs| ==> WellTyped(txs[i])
    requires txs != [] && !txs[0].txType.TypeOther? && Fold(env, store, q, txs).Ok?
    requires HasEffect(PreparedTx(q.project, store, txs[0]))
    ensures |q.effective| < |Fold(env, store, q, txs).value.effective|
    ensures Fold(env, store, q, txs).value.effective[|q.effective|] == PreparedTx(q.project, store, txs[0])
  {
    var q' := Step(env, store, q, txs[0]).value;
    var r := Fold(env, store, q', txs[1..]).value;
    assert r.effective[|q.effective|] == r.effective[..|q'.effective|][|q.effective|];
  }

  /** A transaction with effect at its turn is kept by the loop, right after the survivors before it. */
  lemma EffectKeptByLoop(env: Env, store: Store, user: Phid, project: Project, txs: seq<Transaction>, k: nat, q: Pending)
    requires forall i :: 0 <= i < |txs| ==> WellTyped(txs[i])
    requires k < |txs| && ReachesWith(env, store, user, project, txs, k, q)
    requires Fold(env, store, Start(user, project), txs).Ok?
    requires !txs[k].txType.TypeOther? && HasEffect(PreparedTx(q.project, store, txs[k]))
    ensures var r := Fold(env, store, Start(user, project), txs).value;
      |q.effective| < |r.effective| && r.effective[|q.effective|] == PreparedTx(q.project, store, txs[k])
  {
    ResumeAt(env, store, user, project, txs, k, q);
    var rest := txs[k..];
    assert rest[0] == txs[k] && rest[1..] == txs[k + 1..];
    assert Fold(env, store, q, rest) == Fold(env, store, Start(user, project), txs);
    FoldKeepsHead(env, store, q, rest);
  }

  /**
   * A transaction with effect at its turn is saved: its record follows the
   * records of the transactions before it and carries its type, captured old
   * value and normalised new value, and so does its story.
   */
  lemma EffectIsSaved(env: Env, actor: Option<Phid>, project: Project, txs: seq<Transaction>,
                      store: Store, outcome: CommitOutcome, k: nat, q: Pending, a: Applied)
    requires forall i :: 0 <= i < |txs| ==> WellTyped(txs[i])
    requires ApplyTransactions(env, actor, project, txs, store, outcome) == Ok(a)
    requires actor.Some? && k < |txs| && ReachesWith(env, store, actor.value, project, txs, k, q)
    requires !txs[k].txType.TypeOther? && HasEffect(PreparedTx(q.project, store, txs[k]))
    ensures |q.effective| < |a.effective| && |a.store.feed| == |store.feed| + |a.effective|
    ensures var t := PreparedTx(q.project, store, txs[k]);
      && a.effective[|q.effective|].txType == t.txType
      && a.effective[|q.effective|].oldValue == t.oldValue
      && a.effective[|q.effective|].newValue == t.newValue
    ensures var t, story := PreparedTx(q.project, store, txs[k]), a.store.feed[|store.feed| + |q.effective|];
      story.txType == t.txType && story.oldValue == t.oldValue && story.newValue == t.newValue
  {
    AppliedFromPrepared(env, actor, project, txs, store, outcome, a);
    assert Prepare(env, actor, project, txs, store) == Fold(env, store, Start(actor.value, project), txs);
    EffectKeptByLoop(env, store, actor.value, project, txs, k, q);
    StoriesPerSurvivor(env, actor, project, txs, store, outcome, a);
  }

  /**
   * A duplicate-key failure of a non-empty batch never returns normally: the
   * result is the collision the re-check finds, or else the original exception.
   */
  lemma DuplicateKeyRechecked(env: Env, actor: Option<Phid>, project: Project, txs: seq<Transaction>,
                              store: Store, message: string, rows: seq<Project>)
    requires forall k :: 0 <= k < |txs| ==> WellTyped(txs[k])
    requires Prepare(env, actor, project, txs, store).Ok?
    requires Prepare(env, actor, project, txs, store).value.effective != []
    ensures var r := ApplyTransactions(env, actor, project, txs, store, DuplicateKey(message, rows));
      var edited := Prepare(env, actor, project, txs, store).value.project;
      && r.Err?
      && match ValidateName(edited, rows)
         case None => r.error == Database(DuplicateKeyException(message))
         case Some(c) => r.error == NameCollision(c)
  {
  }

  /**
   * Any other database failure of a non-empty batch is the run's result,
   * unchanged: no name re-check, nothing saved.
   */
  lemma OtherFailurePropagates(env: Env, actor: Option<Phid>, project: Project, txs: seq<Transaction>,
                               store: Store, message: string)
    requires forall k :: 0 <= k < |txs| ==> WellTyped(txs[k])
    requires Prepare(env, actor, project, txs, store).Ok?
    requires Prepare(env, actor, project, txs, store).value.effective != []
    ensures ApplyTransactions(env, actor, project, txs, store, OtherFailure(message)) ==
      Err(Database(QueryException(message)))
  {
  }

  /** A list is empty exactly when nothing is a member of it. */
  lemma EmptyIffNoMembers(xs: seq<Phid>)
    ensures xs == [] <==> forall x :: x !in xs
  {
    if xs != [] {
      assert xs[0] in xs;
    }
  }

  /**
   * A MEMBERS transaction that only reorders the stored members survives the
   * strict comparison, but both edge lists it produces are empty.
   */
  lemma ReorderedMembersSurvive(project: Project, store: Store, tx: Transaction)
    requires tx.txType == TypeMembers && tx.newValue.Phids?
    requires forall x :: x in NormalizeMembers(tx.newValue.items) <==> x in StoredMembers(store, project)
    requires NormalizeMembers(tx.newValue.items) != StoredMembers(store, project)
    ensures var t := PreparedTx(project, store, tx);
      && HasEffect(t)
      && DiffKeys(t.newValue.items, t.oldValue.items) == []
      && DiffKeys(t.oldValue.items, t.newValue.items) == []
  {
    var t := PreparedTx(project, store, tx);
    EmptyIffNoMembers(DiffKeys(t.newValue.items, t.oldValue.items));
    EmptyIffNoMembers(DiffKeys(t.oldValue.items, t.newValue.items));
  }

  /**
   * The member edge diff: the additions are the new members not in the old
   * list, the removals the old members not in the new list; the two are
   * disjoint, and removing then adding turns the old set into the new one.
   */
  lemma EdgeDiffPartition(before: seq<Phid>, after: seq<Phid>)
    ensures var add, rem := DiffKeys(after, before), DiffKeys(before, after);
      && (forall x :: x in add <==> x in after && x !in before)
      && (forall x :: x in rem <==> x in before && x !in after)
      && (forall x :: !(x in add && x in rem))
      && (forall x :: x in EditEdges(before, rem, add) <==> x in after)
  {
  }
}

=== FILE: membership.dfy ===
/**
 * The static entry points `applyJoinProject` and `applyLeaveProject`: each
 * builds one MEMBERS transaction from the project's attached member list
 * plus or minus the user and applies it with a fresh editor acting as that
 * user (`applyOneTransaction`).
 */
module Membership {
  import opened Outcomes
  import opened PhpArrays
  import opened Projects
  import opened ProjectEditor
  import opened EditorProperties

  /** `applyOneTransaction`: a one-transaction batch applied by a new editor whose acting user is `user`. */
  function ApplyOneTransaction(env: Env, project: Project, user: Phid, txType: TxType, newValue: Value,
                               store: Store, outcome: CommitOutcome): (r: Result<Applied, Error>)
    requires WellTyped(NewTransaction(txType, newValue))
    ensures r.Err? ==> r.error != MissingUser
    ensures r.Err? && txType != TypeName && !txType.TypeOther? ==> !outcome.Committed?
    ensures r.Ok? ==> |r.value.effective| <= 1
    ensures r.Ok? && r.value.effective != [] ==>
      && r.value.effective[0].txType == txType
      && r.value.effective[0].authorPHID == Some(user)
      && r.value.store.records == store.records + r.value.effective
      && r.value.effective[0].newValue
           == (if txType == TypeMembers then Phids(NormalizeMembers(newValue.items)) else newValue)
  {
    OneTransactionSurvivor(env, project, user, txType, newValue, store, outcome);
    ApplyTransactions(env, Some(user), project, [NewTransaction(txType, newValue)], store, outcome)
  }

  /** The only transaction `applyOneTransaction` can save is its own, after old-value capture. */
  lemma OneTransactionSurvivor(env: Env, project: Project, user: Phid, txType: TxType, newValue: Value,
                               store: Store, outcome: CommitOutcome)
    requires WellTyped(NewTransaction(txType, newValue))
    ensures var r := ApplyTransactions(env, Some(user), project, [NewTransaction(txType, newValue)], store, outcome);
      r.Ok? && r.value.effective != [] ==>
        |r.value.effective| == 1 && Derives(r.value.effective[0], NewTransaction(txType, newValue))
  {
    var txs := [NewTransaction(txType, newValue)];
    var r := ApplyTransactions(env, Some(user), project, txs, store, outcome);
    if r.Ok? && r.value.effective != [] {
      SurvivorsInInputOrder(env, Some(user), project, txs, store, outcome);
      assert DerivedInOrder(r.value.effective, txs);
      assert txs[1..] == [];
    }
  }

  /** The member list `applyJoinProject` asks for: the attached members with the user appended. */
  function JoinList(members: seq<Phid>, user: Phid): (r: seq<Phid>)
    ensures forall x :: x in NormalizeMembers(r) <==> (x in members || x == user) && !Falsy(x)
  {
    members + [user]
  }

  /** The member list `applyLeaveProject` asks for: the attached members, each once, without the user. */
  function LeaveList(members: seq<Phid>, user: Phid): (r: seq<Phid>)
    ensures forall x :: x in r <==> x in members && x != user
    ensures forall x :: x in NormalizeMembers(r) <==> x in members && x != user && !Falsy(x)
    ensures Distinct(r) && InFirstOccurrenceOrder(r, members)
  {
    UniqueAfterOrder(members, {});
    WithoutOrder(Unique(members), [user], members);
    DiffKeys(members, [user])
  }

  /** `applyJoinProject`: adds `user` to the project's members, acting as `user`. */
  function ApplyJoinProject(env: Env, project: Project, user: Phid, store: Store, outcome: CommitOutcome)
    : (r: Result<Applied, Error>)
    ensures r.Err? ==> !outcome.Committed?
    ensures r.Ok? ==> |r.value.effective| <= 1
    ensures r.Ok? && r.value.effective != [] ==>
      && r.value.effective[0].txType == TypeMembers
      && r.value.effective[0].newValue.Phids?
      && forall x :: x in r.value.effective[0].newValue.items <==>
           (x in project.memberPHIDs || x == user) && !Falsy(x)
  {
    var members := Phids(JoinList(project.memberPHIDs, user));
    OneTransactionSurvivor(env, project, user, TypeMembers, members, store, outcome);
    ApplyOneTransaction(env, project, user, TypeMembers, members, store, outcome)
  }

  /** `applyLeaveProject`: removes `user` from the project's members, acting as `user`. */
  function ApplyLeaveProject(env: Env, project: Project, user: Phid, store: Store, outcome: CommitOutcome)
    : (r: Result<Applied, Error>)
    ensures r.Err? ==> !outcome.Committed?
    ensures r.Ok? ==> |r.value.effective| <= 1
    ensures r.Ok? && r.value.effective != [] ==>
      && r.value.effective[0].txType == TypeMembers
      && r.value.effective[0].newValue.Phids?
      && forall x :: x in r.value.effective[0].newValue.items <==>
           x in project.memberPHIDs && x != user && !Falsy(x)
  {
    var members := Phids(LeaveList(project.memberPHIDs, user));
    OneTransactionSurvivor(env, project, user, TypeMembers, members, store, outcome);
    ApplyOneTransaction(env, project, user, TypeMembers, members, store, outcome)
  }

  /**
   * After a join, the project's member edges hold, as a set, exactly the
   * attached members and the user, without falsy PHIDs; whether the
   * transaction was saved or dropped as having no effect. A new project gets
   * its PHID from the commit, which must not already own edges; a new project
   * whose edit is dropped stays unsaved, without a PHID.
   */
  lemma JoinStoresMembers(env: Env, project: Project, user: Phid, store: Store, outcome: CommitOutcome, a: Applied)
    requires ApplyJoinProject(env, project, user, store, outcome) == Ok(a)
    requires project.phid.None? && outcome.Committed? ==> outcome.assignedPhid !in store.edges
    ensures project.phid.Some? ==> a.project.phid == project.phid
    ensures a.project.phid.Some? ==> forall x :: x in EdgesOf(a.store.edges, a.project.phid.value) <==>
      (x in project.memberPHIDs || x == user) && !Falsy(x)
  {
    var members := Phids(JoinList(project.memberPHIDs, user));
    OneTransactionStoresMembers(env, project, user, members, store, outcome, a);
  }

  /**
   * After a leave, the project's member edges hold, as a set, exactly the
   * attached members other than the user, without falsy PHIDs.
   */
  lemma LeaveStoresMembers(env: Env, project: Project, user: Phid, store: Store, outcome: CommitOutcome, a: Applied)
    requires ApplyLeaveProject(env, project, user, store, outcome) == Ok(a)
    requires project.phid.None? && outcome.Committed? ==> outcome.assignedPhid !in store.edges
    ensures project.phid.Some? ==> a.project.phid == project.phid
    ensures a.project.phid.Some? ==> forall x :: x in EdgesOf(a.store.edges, a.project.phid.value) <==>
      x in project.memberPHIDs && x != user && !Falsy(x)
  {
    var members := Phids(LeaveList(project.memberPHIDs, user));
    OneTransactionStoresMembers(env, project, user, members, store, outcome, a);
  }

  /** A successful one-transaction MEMBERS edit leaves the stored edges equal, as a set, to the normalised list. */
  lemma OneTransactionStoresMembers(env: Env, project: Project, user: Phid, members: Value,
                                    store: Store, outcome: CommitOutcome, a: Applied)
    requires members.Phids?
    requires ApplyOneTransaction(env, project, user, TypeMembers, members, store, outcome) == Ok(a)
    requires project.phid.None? && outcome.Committed? ==> outcome.assignedPhid !in store.edges
    ensures project.phid.Some? ==> a.project.phid == project.phid
    ensures a.project.phid.Some? ==> forall x :: x in EdgesOf(a.store.edges, a.project.phid.value) <==>
      x in members.items && !Falsy(x)
  {
    assert ApplyTransactions(env, Some(user), project, [NewTransaction(TypeMembers, members)], store, outcome) == Ok(a);
    if a.effective == [] {
      DroppedMembersEdit(env, project, user, members, store, outcome, a);
    } else {
      SavedMembersEdit(env, project, user, members, store, outcome, a);
    }
  }

  /** A one-transaction MEMBERS edit dropped as without effect found the stored edges already equal to the normalised list. */
  lemma DroppedMembersEdit(env: Env, project: Project, user: Phid, members: Value,
                           store: Store, outcome: CommitOutcome, a: Applied)
    requires members.Phids?
    requires ApplyTransactions(env, Some(user), project, [NewTransaction(TypeMembers, members)], store, outcome) == Ok(a)
    requires a.effective == []
    ensures a.project.phid == project.phid
    ensures a.project.phid.Some? ==> forall x :: x in EdgesOf(a.store.edges, a.project.phid.value) <==>
      x in members.items && !Falsy(x)
  {
    var tx := NewTransaction(TypeMembers, members);
    SingleDropped(env, Some(user), project, tx, store, outcome, a);
    if project.phid.Some? {
      var t := PreparedTx(project, store, tx);
      assert t.oldValue == Phids(EdgesOf(store.edges, project.phid.value));
    }
  }

  /** A saved one-transaction MEMBERS edit writes edges equal, as a set, to its normalised list. */
  lemma SavedMembersEdit(env: Env, project: Project, user: Phid, members: Value,
                         store: Store, outcome: CommitOutcome, a: Applied)
    requires members.Phids?
    requires ApplyTransactions(env, Some(user), project, [NewTransaction(TypeMembers, members)], store, outcome) == Ok(a)
    requires a.effective != []
    requires project.phid.None? && outcome.Committed? ==> outcome.assignedPhid !in store.edges
    ensures project.phid.Some? ==> a.project.phid == project.phid
    ensures a.project.phid.Some? ==> forall x :: x in EdgesOf(a.store.edges, a.project.phid.value) <==>
      x in members.items && !Falsy(x)
  {
    var txs := [NewTransaction(TypeMembers, members)];
    CommitIsPersist(env, Some(user), project, txs, store, outcome, a);
    CommittedMembers(env, Some(user), project, txs, store, outcome, a);
    OneTransactionSurvivor(env, project, user, TypeMembers, members, store, outcome);
    LastIndexOfOne(a.effective, TypeMembers);
  }

  /**
   * Joining a saved project one is already a member of saves nothing, provided
   * the attached member list is the stored one and is already normalised.
   */
  lemma JoinByMemberIsNoOp(env: Env, project: Project, user: Phid, store: Store, outcome: CommitOutcome)
    requires project.memberPHIDs == StoredMembers(store, project)
    requires Distinct(project.memberPHIDs) && forall k :: 0 <= k < |project.memberPHIDs| ==> !Falsy(project.memberPHIDs[k])
    requires user in project.memberPHIDs
    ensures var r := ApplyJoinProject(env, project, user, store, outcome);
      r.Ok? && r.value.effective == [] && r.value.store == store
  {
    var list := JoinList(project.memberPHIDs, user);
    NormalizeSnoc(project.memberPHIDs, user);
    NormalizeIdempotent(project.memberPHIDs);
    assert NormalizeMembers(list) == project.memberPHIDs;
    var tx := NewTransaction(TypeMembers, Phids(list));
    assert IsNoOp(project, store, tx);
    NoOpBatch(env, Some(user), project, [tx], store, outcome);
  }

  /**
   * Leaving a saved project one is not a member of saves nothing, provided
   * the attached member list is the stored one and is already normalised.
   */
  lemma LeaveByNonMemberIsNoOp(env: Env, project: Project, user: Phid, store: Store, outcome: CommitOutcome)
    requires project.memberPHIDs == StoredMembers(store, project)
    requires Distinct(project.memberPHIDs) && forall k :: 0 <= k < |project.memberPHIDs| ==> !Falsy(project.memberPHIDs[k])
    requires user !in project.memberPHIDs
    ensures var r := ApplyLeaveProject(env, project, user, store, outcome);
      r.Ok? && r.value.effective == [] && r.value.store == store
  {
    var members := project.memberPHIDs;
    UniqueAfterOfDistinct(members, {});
    WithoutAbsent(members, [user]);
    assert LeaveList(members, user) == members;
    NormalizeIdempotent(members);
    var tx := NewTransaction(TypeMembers, Phids(members));
    assert IsNoOp(project, store, tx);
    NoOpBatch(env, Some(user), project, [tx], store, outcome);
  }
}

=== FILE: name_validator.dfy ===
/**
 * `validateName`: a project's name is refused when its slug is the root slug
 * "/" (the name has no letters or digits), or when another saved project
 * already has the same name or the same slug.
 */
module NameValidator {
  import opened Outcomes
  import opened Projects

  /** The slug of a name that contains no letters or numbers. */
  const RootSlug: string := "/"

  /**
   * The row is another saved project: its id differs from `id` when the project
   * is saved, and is any non-null id when it is not (`id != %d` or `id IS NOT NULL`).
   */
  predicate IsOther(row: Project, id: Option<ProjectId>) {
    match id
    case None => row.id.Some?
    case Some(own) => row.id.Some? && row.id.value != own
  }

  /** The row is another project with the same name or the same slug. */
  predicate Collides(row: Project, id: Option<ProjectId>, name: string, slug: string) {
    IsOther(row, id) && (row.name == name || row.slug == slug)
  }

  /** The first colliding row in storage order, as `loadOneWhere` returns it. */
  function FirstCollision(rows: seq<Project>, id: Option<ProjectId>, name: string, slug: string): (r: Option<Project>)
    ensures r.None? <==> forall k :: 0 <= k < |rows| ==> !Collides(rows[k], id, name, slug)
    ensures r.Some? ==> r.value in rows && Collides(r.value, id, name, slug)
  {
    if rows == [] then None
    else if Collides(rows[0], id, name, slug) then Some(rows[0])
    else
      assert forall k :: 1 <= k < |rows| ==> rows[k] == rows[1..][k - 1];
      FirstCollision(rows[1..], id, name, slug)
  }

  /**
   * `validateName($project)` against the project table `rows`: `None` when the
   * name is acceptable, otherwise the collision the editor throws.
   */
  function ValidateName(project: Project, rows: seq<Project>): (r: Option<Collision>)
    ensures project.slug == RootSlug ==> r == Some(DegenerateName)
    ensures project.slug != RootSlug ==>
      (r.None? <==> forall row :: row in rows ==> !Collides(row, project.id, project.name, project.slug))
    ensures project.slug != RootSlug && r.Some? ==> r.value.TooSimilar?
    ensures r.Some? && r.value.TooSimilar? ==>
      && project.slug != RootSlug
      && r.value.name == project.name
      && exists row :: row in rows && Collides(row, project.id, project.name, project.slug)
           && row.name == r.value.otherName && row.id == Some(r.value.otherId)
  {
    if project.slug == RootSlug then Some(DegenerateName)
    else
      match FirstCollision(rows, project.id, project.name, project.slug)
      case None => None
      case Some(other) => Some(TooSimilar(project.name, other.name, other.id.value))
  }

  /** The verdict depends on nothing but the project's id, name and slug. */
  lemma ValidateNameDependsOnKey(p: Project, q: Project, rows: seq<Project>)
    requires p.id == q.id && p.name == q.name && p.slug == q.slug
    ensures ValidateName(p, rows) == ValidateName(q, rows)
  {
  }
}

=== FILE: outcomes.dfy ===
/** Optional values and success-or-error results, used for PHP's nulls and exceptions. */
module Outcomes {

  /** A value that may be absent (PHP `null`). */
  datatype Option<+T> = None | Some(value: T)

  /** The outcome of an operation that either returns a value or throws. */
  datatype Result<+T, +E> = Ok(value: T) | Err(error: E)
}

=== FILE: php_arrays.dfy ===
/**
 * The PHP array built-ins the project editor applies to member lists,
 * restricted to lists of strings: `array_filter` without a callback,
 * `array_unique`, and the `array_fill_keys` / `array_diff_key` /
 * `array_keys` idiom used for set difference. Re-indexing with
 * `array_values` is the identity on sequences.
 */
module PhpArrays {

  /** The strings PHP treats as false: the empty string and "0". */
  predicate Falsy(s: string) {
    s == "" || s == "0"
  }

  /** No element occurs twice. */
  predicate Distinct(xs: seq<string>) {
    forall i, j :: 0 <= i < j < |xs| ==> xs[i] != xs[j]
  }

  /** Position of the first occurrence of `x` in `xs`. */
  function FirstIndex(xs: seq<string>, x: string): (k: nat)
    requires x in xs
    ensures k < |xs| && xs[k] == x
    ensures x !in xs[..k]
  {
    if xs[0] == x then 0
    else
      var k' := FirstIndex(xs[1..], x);
      assert xs[..k' + 1] == [xs[0]] + xs[1..][..k'];
      k' + 1
  }

  /** Every entry of `r` occurs in `xs`, and `r` lists them in the order of their first occurrence there. */
  predicate InFirstOccurrenceOrder(r: seq<string>, xs: seq<string>) {
    && (forall k :: 0 <= k < |r| ==> r[k] in xs)
    && (forall i, j :: 0 <= i < j < |r| ==> FirstIndex(xs, r[i]) < FirstIndex(xs, r[j]))
  }

  /** `array_filter($xs)`: drops the falsy entries and keeps the order of the rest. */
  function FilterFalsy(xs: seq<string>): (r: seq<string>)
    ensures forall x :: x in r <==> x in xs && !Falsy(x)
    ensures |r| <= |xs|
  {
    if xs == [] then []
    else
      assert xs == [xs[0]] + xs[1..];
      if Falsy(xs[0]) then FilterFalsy(xs[1..]) else [xs[0]] + FilterFalsy(xs[1..])
  }

  /**
   * `array_unique($xs)` when the values in `seen` already occurred earlier:
   * every value is kept at its first occurrence only.
   */
  function UniqueAfter(xs: seq<string>, seen: set<string>): (r: seq<string>)
    ensures forall x :: x in r <==> x in xs && x !in seen
    ensures Distinct(r)
    ensures |r| <= |xs|
  {
    if xs == [] then []
    else
      assert xs == [xs[0]] + xs[1..];
      if xs[0] in seen then UniqueAfter(xs[1..], seen)
      else [xs[0]] + UniqueAfter(xs[1..], seen + {xs[0]})
  }

  /** `array_unique($xs)`: keeps the first occurrence of every value. */
  function Unique(xs: seq<string>): (r: seq<string>)
    ensures forall x :: x in r <==> x in xs
    ensures Distinct(r)
  {
    UniqueAfter(xs, {})
  }

  /** The entries of `xs` that do not occur in `drop`, in their original order. */
  function Without(xs: seq<string>, drop: seq<string>): (r: seq<string>)
    ensures forall x :: x in r <==> x in xs && x !in drop
    ensures Distinct(xs) ==> Distinct(r)
  {
    if xs == [] then []
    else
      assert xs == [xs[0]] + xs[1..];
      if xs[0] in drop then Without(xs[1..], drop) else [xs[0]] + Without(xs[1..], drop)
  }

  /**
   * `array_keys(array_diff_key(array_fill_keys($a, true), array_fill_keys($b, true)))`:
   * the distinct values of `a` that are not values of `b`, in first-occurrence order.
   */
  function DiffKeys(a: seq<string>, b: seq<string>): (r: seq<string>)
    ensures forall x :: x in r <==> x in a && x !in b
    ensures Distinct(r)
  {
    Without(Unique(a), b)
  }

  /**
   * The normalisation the editor applies to a new member list:
   * `array_values(array_unique(array_filter($xs)))`.
   */
  function NormalizeMembers(xs: seq<string>): (r: seq<string>)
    ensures forall x :: x in r <==> x in xs && !Falsy(x)
    ensures forall k :: 0 <= k < |r| ==> !Falsy(r[k])
    ensures Distinct(r)
  {
    Unique(FilterFalsy(xs))
  }

  /** Filtering distributes over concatenation. */
  lemma {:induction false} FilterFalsyAppend(a: seq<string>, b: seq<string>)
    ensures FilterFalsy(a + b) == FilterFalsy(a) + FilterFalsy(b)
  {
    if a == [] {
      assert a + b == b;
    } else {
      assert (a + b)[0] == a[0];
      assert (a + b)[1..] == a[1..] + b;
      FilterFalsyAppend(a[1..], b);
    }
  }

  /** Appending one value to the input of `array_unique` appends it to the output iff it is new. */
  lemma {:induction false} UniqueAfterSnoc(xs: seq<string>, x: string, seen: set<string>)
    ensures UniqueAfter(xs + [x], seen)
         == UniqueAfter(xs, seen) + (if x in seen || x in xs then [] else [x])
  {
    if xs == [] {
      assert xs + [x] == [x];
      assert [x][1..] == [];
    } else {
      assert (xs + [x])[0] == xs[0];
      assert (xs + [x])[1..] == xs[1..] + [x];
      assert x in xs <==> x == xs[0] || x in xs[1..] by {
        assert xs == [xs[0]] + xs[1..];
      }
      if xs[0] in seen {
        UniqueAfterSnoc(xs[1..], x, seen);
      } else {
        UniqueAfterSnoc(xs[1..], x, seen + {xs[0]});
      }
    }
  }

  /** Normalising a list extended by one entry extends the normalised list by that entry iff it is new and not falsy. */
  lemma NormalizeSnoc(xs: seq<string>, x: string)
    ensures NormalizeMembers(xs + [x])
         == NormalizeMembers(xs) + (if Falsy(x) || x in xs then [] else [x])
  {
    FilterFalsyAppend(xs, [x]);
    assert FilterFalsy([x]) == (if Falsy(x) then [] else [x]) by {
      assert [x][1..] == [];
    }
    var f := FilterFalsy(xs);
    if Falsy(x) {
      assert f + [] == f;
    } else {
      UniqueAfterSnoc(f, x, {});
    }
  }

  /** An order by first occurrence in the tail of `xs` is one in `xs`, also after prepending the head. */
  lemma ShiftOrder(xs: seq<string>, r: seq<string>)
    requires xs != [] && xs[0] !in r
    requires InFirstOccurrenceOrder(r, xs[1..])
    ensures InFirstOccurrenceOrder(r, xs)
    ensures InFirstOccurrenceOrder([xs[0]] + r, xs)
  {
    forall k | 0 <= k < |r|
      ensures r[k] in xs && FirstIndex(xs, r[k]) == 1 + FirstIndex(xs[1..], r[k])
    {
      assert r[k] in r;
    }
    var r0 := [xs[0]] + r;
    forall i, j | 0 <= i < j < |r0|
      ensures FirstIndex(xs, r0[i]) < FirstIndex(xs, r0[j])
    {
      assert r0[j] == r[j - 1];
      if i > 0 {
        assert r0[i] == r[i - 1];
      }
    }
  }

  /** `array_unique` keeps values in the order of their first occurrence in its input. */
  lemma {:induction false} UniqueAfterOrder(xs: seq<string>, seen: set<string>)
    ensures InFirstOccurrenceOrder(UniqueAfter(xs, seen), xs)
  {
    if xs != [] {
      var x := xs[0];
      var rest := if x in seen then seen else seen + {x};
      UniqueAfterOrder(xs[1..], rest);
      ShiftOrder(xs, UniqueAfter(xs[1..], rest));
    }
  }

  /** The tail of an ordered list is ordered. */
  lemma TailOrder(xs: seq<string>, ys: seq<string>)
    requires xs != [] && InFirstOccurrenceOrder(xs, ys)
    ensures InFirstOccurrenceOrder(xs[1..], ys)
  {
    var tail := xs[1..];
    forall i, j | 0 <= i < j < |tail|
      ensures FirstIndex(ys, tail[i]) < FirstIndex(ys, tail[j])
    {
      assert tail[i] == xs[i + 1] && tail[j] == xs[j + 1];
    }
  }

  /** In an ordered list the head comes before everything in the tail. */
  lemma HeadFirst(xs: seq<string>, ys: seq<string>)
    requires xs != [] && InFirstOccurrenceOrder(xs, ys)
    ensures xs[0] in ys
    ensures forall v :: v in xs[1..] ==> FirstIndex(ys, xs[0]) < FirstIndex(ys, v)
  {
    forall v | v in xs[1..]
      ensures FirstIndex(ys, xs[0]) < FirstIndex(ys, v)
    {
      var m :| 0 <= m < |xs[1..]| && xs[1..][m] == v;
      assert xs[m + 1] == v;
    }
  }

  /** An ordered list stays ordered behind a value that comes before all of it. */
  lemma ConsOrder(x: string, w: seq<string>, ys: seq<string>)
    requires x in ys && InFirstOccurrenceOrder(w, ys)
    requires forall v :: v in w ==> FirstIndex(ys, x) < FirstIndex(ys, v)
    ensures InFirstOccurrenceOrder([x] + w, ys)
  {
    var r := [x] + w;
    forall i, j | 0 <= i < j < |r|
      ensures FirstIndex(ys, r[i]) < FirstIndex(ys, r[j])
    {
      assert r[j] == w[j - 1];
      if i > 0 {
        assert r[i] == w[i - 1];
      }
    }
  }

  /** Dropping entries keeps the survivors in the order they had. */
  lemma {:induction false} WithoutOrder(xs: seq<string>, drop: seq<string>, ys: seq<string>)
    requires InFirstOccurrenceOrder(xs, ys)
    ensures InFirstOccurrenceOrder(Without(xs, drop), ys)
  {
    if xs != [] {
      TailOrder(xs, ys);
      WithoutOrder(xs[1..], drop, ys);
      if xs[0] !in drop {
        HeadFirst(xs, ys);
        ConsOrder(xs[0], Without(xs[1..], drop), ys);
      }
    }
  }

  /** Filtering keeps the relative order of the first occurrences of the values it keeps. */
  lemma {:induction false} FilterFalsyFirstIndex(xs: seq<string>, a: string, b: string)
    requires a in xs && b in xs && !Falsy(a) && !Falsy(b)
    ensures FirstIndex(FilterFalsy(xs), a) < FirstIndex(FilterFalsy(xs), b)
        <==> FirstIndex(xs, a) < FirstIndex(xs, b)
  {
    assert xs == [xs[0]] + xs[1..];
    if Falsy(xs[0]) {
      FilterFalsyFirstIndex(xs[1..], a, b);
    } else if a != xs[0] && b != xs[0] {
      FilterFalsyFirstIndex(xs[1..], a, b);
    }
  }

  /**
   * The normalised member list lists the distinct non-falsy entries of its
   * input in the order in which they first occur there.
   */
  lemma NormalizeOrder(xs: seq<string>)
    ensures InFirstOccurrenceOrder(NormalizeMembers(xs), xs)
  {
    var f := FilterFalsy(xs);
    var r := NormalizeMembers(xs);
    assert r == UniqueAfter(f, {});
    UniqueAfterOrder(f, {});
    forall i, j | 0 <= i < j < |r|
      ensures FirstIndex(xs, r[i]) < FirstIndex(xs, r[j])
    {
      var a, b := r[i], r[j];
      assert a in f && b in f;
      assert FirstIndex(f, a) < FirstIndex(f, b);
      FilterFalsyFirstIndex(xs, a, b);
    }
  }

  /** Filtering a list without falsy entries changes nothing. */
  lemma {:induction false} FilterFalsyOfTruthy(xs: seq<string>)
    requires forall k :: 0 <= k < |xs| ==> !Falsy(xs[k])
    ensures FilterFalsy(xs) == xs
  {
    if xs != [] {
      FilterFalsyOfTruthy(xs[1..]);
      assert xs == [xs[0]] + xs[1..];
    }
  }

  /** `array_unique` on a list without repetitions, none of whose values were seen, changes nothing. */
  lemma {:induction false} UniqueAfterOfDistinct(xs: seq<string>, seen: set<string>)
    requires Distinct(xs)
    requires forall k :: 0 <= k < |xs| ==> xs[k] !in seen
    ensures UniqueAfter(xs, seen) == xs
  {
    if xs != [] {
      var tail := xs[1..];
      assert forall k :: 0 <= k < |tail| ==> tail[k] == xs[k + 1];
      UniqueAfterOfDistinct(tail, seen + {xs[0]});
      assert xs == [xs[0]] + tail;
    }
  }

  /** An already normalised member list is its own normalisation. */
  lemma NormalizeIdempotent(xs: seq<string>)
    requires Distinct(xs)
    requires forall k :: 0 <= k < |xs| ==> !Falsy(xs[k])
    ensures NormalizeMembers(xs) == xs
  {
    FilterFalsyOfTruthy(xs);
    UniqueAfterOfDistinct(xs, {});
  }

  /** Dropping values that do not occur changes nothing. */
  lemma {:induction false} WithoutAbsent(xs: seq<string>, drop: seq<string>)
    requires forall k :: 0 <= k < |xs| ==> xs[k] !in drop
    ensures Without(xs, drop) == xs
  {
    if xs != [] {
      var tail := xs[1..];
      assert forall k :: 0 <= k < |tail| ==> tail[k] == xs[k + 1];
      WithoutAbsent(tail, drop);
      assert xs == [xs[0]] + tail;
    }
  }

  /**
   * An entry-by-entry scan that keeps each non-falsy entry the first time it is
   * seen; it computes exactly the normalised member list.
   */
  method NormalizeByScan(xs: seq<string>) returns (r: seq<string>)
    ensures r == NormalizeMembers(xs)
  {
    r := [];
    var seen: set<string> := {};
    var i := 0;
    while i < |xs|
      invariant 0 <= i <= |xs|
      invariant r == NormalizeMembers(xs[..i])
      invariant forall y :: y in seen <==> y in r
    {
      var x := xs[i];
      NormalizeSnoc(xs[..i], x);
      assert xs[..i + 1] == xs[..i] + [x];
      if !Falsy(x) && x !in seen {
        r := r + [x];
        seen := seen + {x};
      }
      i := i + 1;
    }
    assert xs[..i] == xs;
  }
}

=== FILE: project_editor.dfy ===
/**
 * `PhabricatorProjectEditor::applyTransactions` as a pure function: a fold
 * over the batch that captures each transaction's old value, drops the
 * transactions without effect and applies the rest to an in-memory project,
 * followed by one commit of the project row, the member edges and the
 * transaction records, and one feed story per surviving transaction.
 */
module ProjectEditor {
  import opened Outcomes
  import opened PhpArrays
  import opened Projects
  import opened NameValidator

  /** What the editor takes from its surroundings: slug derivation and the clock. */
  datatype Env = Env(slugOf: string -> string, now: int)

  /**
   * The editor's state inside the loop: the project as edited so far, the
   * transactions that survived, and the member edges to add and to remove.
   */
  datatype Pending = Pending(
    project: Project,
    effective: seq<Transaction>,
    addEdges: seq<Phid>,
    remEdges: seq<Phid>)

  /** A completed `applyTransactions`: the project, the store, and the saved transaction records. */
  datatype Applied = Applied(project: Project, store: Store, effective: seq<Transaction>)

  /** A transaction whose old value has been captured and whose new value is normalised. */
  predicate Prepared(t: Transaction) {
    match t.txType
    case TypeName => t.oldValue.Text? && t.newValue.Text?
    case TypeStatus => t.oldValue.Code? && t.newValue.Code?
    case TypeMembers =>
      && t.oldValue.Phids? && t.newValue.Phids?
      && Distinct(t.newValue.items)
      && (forall k :: 0 <= k < |t.newValue.items| ==> !Falsy(t.newValue.items[k]))
    case TypeOther(_) => false
  }

  /**
   * `setTransactionOldValue`: NAME and STATUS take the project's current
   * value; MEMBERS loads the stored members, attaches them to the project,
   * takes them as the old value and normalises the new value; any other
   * type is an error.
   */
  function SetOldValue(project: Project, store: Store, tx: Transaction): (r: Result<(Project, Transaction), Error>)
    requires WellTyped(tx)
    ensures r.Err? <==> tx.txType.TypeOther?
    ensures r.Err? ==> r.error == UnknownType(tx.txType.tag)
    ensures r.Ok? ==> Prepared(r.value.1)
    ensures r.Ok? ==> r.value.0 == project.(memberPHIDs := r.value.0.memberPHIDs)
    ensures r.Ok? ==> r.value.1 == tx.(oldValue := r.value.1.oldValue, newValue := r.value.1.newValue)
    ensures tx.txType == TypeName ==> r.Ok? && r.value.1.oldValue == Text(project.name)
    ensures tx.txType == TypeStatus ==> r.Ok? && r.value.1.oldValue == Code(project.status)
    ensures tx.txType != TypeMembers && r.Ok? ==> r.value == (project, tx.(oldValue := r.value.1.oldValue))
    ensures tx.txType == TypeMembers ==>
      && r.Ok?
      && r.value.0.memberPHIDs == StoredMembers(store, project)
      && r.value.1.oldValue == Phids(StoredMembers(store, project))
      && (forall x :: x in r.value.1.newValue.items <==> x in tx.newValue.items && !Falsy(x))
      && InFirstOccurrenceOrder(r.value.1.newValue.items, tx.newValue.items)
  {
    match tx.txType
    case TypeName => Ok((project, tx.(oldValue := Text(project.name))))
    case TypeStatus => Ok((project, tx.(oldValue := Code(project.status))))
    case TypeMembers =>
      var members := StoredMembers(store, project);
      NormalizeOrder(tx.newValue.items);
      Ok((project.(memberPHIDs := members),
          tx.(oldValue := Phids(members), newValue := Phids(NormalizeMembers(tx.newValue.items)))))
    case TypeOther(tag) => Err(UnknownType(tag))
  }

  /**
   * `transactionHasEffect`: PHP's strict `!==` on the old and new values. No
   * type juggling: an integer status never equals a text or a list, and two
   * member lists are equal only position by position, so a reordering counts.
   */
  predicate HasEffect(t: Transaction): (r: bool)
    ensures t.oldValue.Code? != t.newValue.Code? ==> r
    ensures t.oldValue.Phids? && t.newValue.Phids? ==>
      (r <==> |t.oldValue.items| != |t.newValue.items|
              || exists i :: 0 <= i < |t.oldValue.items| && t.oldValue.items[i] != t.newValue.items[i])
  {
    t.oldValue != t.newValue
  }

  /**
   * `applyTransactionEffect`: NAME renames the project, re-derives its slug
   * and validates the name against the project table; STATUS sets the status;
   * MEMBERS replaces the edges to add and to remove by the difference between
   * the new and the old member list.
   */
  function ApplyEffect(env: Env, rows: seq<Project>, p: Pending, t: Transaction): (r: Result<Pending, Error>)
    requires Prepared(t)
    ensures r.Ok? ==> r.value.effective == p.effective
    ensures t.txType != TypeMembers && r.Ok? ==> r.value.addEdges == p.addEdges && r.value.remEdges == p.remEdges
    ensures t.txType != TypeName ==> r.Ok?
    ensures t.txType == TypeName ==>
      var renamed := p.project.(name := t.newValue.text, slug := env.slugOf(t.newValue.text));
      match ValidateName(renamed, rows)
      case Some(c) => r == Err(NameCollision(c))
      case None => r == Ok(p.(project := renamed))
    ensures t.txType == TypeStatus ==> r.value.project == p.project.(status := t.newValue.code)
    ensures t.txType == TypeMembers ==>
      && r.value.project == p.project
      && (forall x :: x in r.value.addEdges <==> x in t.newValue.items && x !in t.oldValue.items)
      && (forall x :: x in r.value.remEdges <==> x in t.oldValue.items && x !in t.newValue.items)
  {
    match t.txType
    case TypeName =>
      var renamed := p.project.(name := t.newValue.text, slug := env.slugOf(t.newValue.text));
      (match ValidateName(renamed, rows)
       case Some(c) => Err(NameCollision(c))
       case None => Ok(p.(project := renamed)))
    case TypeStatus => Ok(p.(project := p.project.(status := t.newValue.code)))
    case TypeMembers =>
      var before := t.oldValue.items;
      var after := t.newValue.items;
      Ok(p.(addEdges := DiffKeys(after, before), remEdges := DiffKeys(before, after)))
    case TypeOther(tag) => Err(UnknownType(tag))
  }

  /** The transaction `tx` becomes once its old value is captured against `project`. */
  function PreparedTx(project: Project, store: Store, tx: Transaction): (t: Transaction)
    requires WellTyped(tx) && !tx.txType.TypeOther?
    ensures Prepared(t) && t.txType == tx.txType
  {
    SetOldValue(project, store, tx).value.1
  }

  /**
   * One iteration of the loop over the batch: capture the old value, then
   * either drop the transaction (no effect) or apply it and keep it.
   */
  function Step(env: Env, store: Store, p: Pending, tx: Transaction): (r: Result<Pending, Error>)
    requires WellTyped(tx)
    ensures tx.txType.TypeOther? ==> r == Err(UnknownType(tx.txType.tag))
    ensures r.Ok? ==> !tx.txType.TypeOther?
    ensures r.Err? ==> r.error.UnknownType? || r.error.NameCollision?
    ensures r.Err? ==> tx.txType.TypeOther? || tx.txType == TypeName
    ensures r.Err? && tx.txType == TypeName ==>
      var renamed := p.project.(name := tx.newValue.text, slug := env.slugOf(tx.newValue.text));
      && tx.newValue.text != p.project.name
      && ValidateName(renamed, store.projects).Some?
      && r.error == NameCollision(ValidateName(renamed, store.projects).value)
    ensures r.Ok? ==>
      var t := PreparedTx(p.project, store, tx);
      && (HasEffect(t) <==> r.value.effective == p.effective + [t])
      && (!HasEffect(t) <==> r.value.effective == p.effective)
    ensures r.Ok? && !HasEffect(PreparedTx(p.project, store, tx)) ==>
      r.value == p.(project := p.project.(memberPHIDs := r.value.project.memberPHIDs))
    ensures r.Ok? && tx.txType != TypeMembers ==> r.value.addEdges == p.addEdges && r.value.remEdges == p.remEdges
    ensures r.Ok? && tx.txType == TypeMembers ==> r.value.project.memberPHIDs == StoredMembers(store, p.project)
    ensures r.Ok? && tx.txType != TypeMembers ==> r.value.project.memberPHIDs == p.project.memberPHIDs
    ensures r.Ok? ==> r.value.project.id == p.project.id && r.value.project.phid == p.project.phid
    ensures r.Ok? ==> r.value.project.authorPHID == p.project.authorPHID
  {
    match SetOldValue(p.project, store, tx)
    case Err(e) => Err(e)
    case Ok((project, t)) =>
      var p' := p.(project := project);
      if !HasEffect(t) then Ok(p')
      else
        match ApplyEffect(env, store.projects, p', t)
        case Err(e) => Err(e)
        case Ok(p'') => Ok(p''.(effective := p''.effective + [t]))
  }

  /** The batch holds a transaction that can throw: one of unknown type, or a rename that may collide. */
  predicate CanFail(txs: seq<Transaction>) {
    exists k :: 0 <= k < |txs| && (txs[k].txType.TypeOther? || txs[k].txType == TypeName)
  }

  /** A batch whose tail can throw can throw. */
  lemma CanFailTail(txs: seq<Transaction>)
    requires txs != []
    ensures CanFail(txs[1..]) ==> CanFail(txs)
  {
    if CanFail(txs[1..]) {
      var k :| 0 <= k < |txs[1..]| && (txs[1..][k].txType.TypeOther? || txs[1..][k].txType == TypeName);
      assert txs[k + 1] == txs[1..][k];
    }
  }

  /**
   * The loop over the batch in input order; the first exception aborts it.
   * Survivors are appended to `effective`, so the transactions already kept
   * stay a prefix, and a batch that contains a transaction of unknown type
   * never completes.
   */
  function Fold(env: Env, store: Store, p: Pending, txs: seq<Transaction>): (r: Result<Pending, Error>)
    requires forall k :: 0 <= k < |txs| ==> WellTyped(txs[k])
    ensures r.Ok? ==> forall k :: 0 <= k < |txs| ==> !txs[k].txType.TypeOther?
    ensures r.Err? ==> r.error.UnknownType? || r.error.NameCollision?
    ensures r.Err? ==> CanFail(txs)
    ensures r.Ok? ==> |p.effective| <= |r.value.effective| <= |p.effective| + |txs|
    ensures r.Ok? ==> r.value.effective[..|p.effective|] == p.effective
    ensures r.Ok? ==> r.value.project.id == p.project.id && r.value.project.phid == p.project.phid
    ensures r.Ok? ==> r.value.project.authorPHID == p.project.authorPHID
    decreases |txs|
  {
    if txs == [] then Ok(p)
    else
      match Step(env, store, p, txs[0])
      case Err(e) => Err(e)
      case Ok(p') =>
        var r := Fold(env, store, p', txs[1..]);
        CanFailTail(txs);
        assert r.Ok? ==> r.value.effective[..|p.effective|] == r.value.effective[..|p'.effective|][..|p.effective|];
        r
  }

  /** The editor's state before the loop: a new project is stamped with the acting user as author. */
  function Start(user: Phid, project: Project): (p: Pending)
    ensures p.effective == [] && p.addEdges == [] && p.remEdges == []
    ensures project.id.None? ==> p.project == project.(authorPHID := Some(user))
    ensures project.id.Some? ==> p.project == project
  {
    var stamped := if project.id.None? then project.(authorPHID := Some(user)) else project;
    Pending(stamped, [], [], [])
  }

  /** The saved records: each surviving transaction with its author, its project and an auto-increment id. */
  function Stamp(effective: seq<Transaction>, user: Phid, projectId: ProjectId, lastId: nat): (r: seq<Transaction>)
    ensures |r| == |effective|
    ensures forall k :: 0 <= k < |r| ==>
      r[k] == effective[k].(authorPHID := Some(user), projectId := Some(projectId), id := Some(lastId + k + 1))
  {
    seq(|effective|, k requires 0 <= k < |effective| =>
      effective[k].(authorPHID := Some(user), projectId := Some(projectId), id := Some(lastId + k + 1)))
  }

  /** `publishTransactionStory`: the project feed story for one saved transaction. */
  function PublishStory(projectPHID: Phid, record: Transaction, now: int): (s: Story)
    requires record.authorPHID.Some? && record.id.Some?
    ensures s.relatedPHIDs == [projectPHID, record.authorPHID.value]
    ensures s.authorPHID == record.authorPHID.value && s.transactionId == record.id.value
    ensures s.txType == record.txType && s.oldValue == record.oldValue && s.newValue == record.newValue
    ensures s.projectPHID == projectPHID && s.time == now
  {
    var author := record.authorPHID.value;
    Story(projectPHID, record.id.value, record.txType, record.oldValue, record.newValue,
          author, [projectPHID, author], now)
  }

  /** One story per saved record, in the order the records were saved. */
  function Stories(projectPHID: Phid, records: seq<Transaction>, now: int): (r: seq<Story>)
    requires forall k :: 0 <= k < |records| ==> records[k].authorPHID.Some? && records[k].id.Some?
    ensures |r| == |records|
    ensures forall k :: 0 <= k < |r| ==> r[k] == PublishStory(projectPHID, records[k], now)
  {
    seq(|records|, k requires 0 <= k < |records| => PublishStory(projectPHID, records[k], now))
  }

  /** The project after `save()`: an insert gives it the row id and the PHID the store assigns. */
  function SavedProject(project: Project, assignedId: ProjectId, assignedPhid: Phid): (s: Project)
    ensures s.id.Some? && s.phid.Some?
    ensures project.id.Some? ==> s.id == project.id
    ensures project.phid.Some? ==> s.phid == project.phid
    ensures s == project.(id := s.id, phid := s.phid)
  {
    var id := if project.id.None? then assignedId else project.id.value;
    var phid := if project.phid.Some? then project.phid.value else assignedPhid;
    project.(id := Some(id), phid := Some(phid))
  }

  /**
   * The member edges after the edge editor's `save()`: for this project's PHID,
   * the removals then the additions; no write at all when both lists are empty.
   */
  function SaveEdges(edges: map<Phid, seq<Phid>>, phid: Phid, rem: seq<Phid>, add: seq<Phid>): (e: map<Phid, seq<Phid>>)
    ensures forall q :: q != phid ==> EdgesOf(e, q) == EdgesOf(edges, q)
    ensures rem == [] && add == [] ==> e == edges
    ensures forall x :: x in EdgesOf(e, phid) <==> (x in EdgesOf(edges, phid) && x !in rem) || x in add
  {
    if rem == [] && add == [] then edges
    else edges[phid := EditEdges(EdgesOf(edges, phid), rem, add)]
  }

  /**
   * A successful commit followed by publication: the project row, the member
   * edges, one record per surviving transaction and one story per record.
   */
  function Persist(user: Phid, store: Store, p: Pending, assignedId: ProjectId, assignedPhid: Phid, now: int): (a: Applied)
    ensures a.project == SavedProject(p.project, assignedId, assignedPhid)
    ensures |a.effective| == |p.effective|
    ensures a.store.records == store.records + a.effective
    ensures forall k :: 0 <= k < |a.effective| ==>
      && a.effective[k].txType == p.effective[k].txType
      && a.effective[k].oldValue == p.effective[k].oldValue
      && a.effective[k].newValue == p.effective[k].newValue
      && a.effective[k].authorPHID == Some(user)
      && a.effective[k].projectId == a.project.id
      && a.effective[k].id == Some(|store.records| + k + 1)
    ensures |a.store.feed| == |store.feed| + |a.effective|
    ensures a.store.feed[..|store.feed|] == store.feed
    ensures forall k :: 0 <= k < |a.effective| ==>
      && a.store.feed[|store.feed| + k].relatedPHIDs == [a.project.phid.value, user]
      && a.store.feed[|store.feed| + k].authorPHID == user
      && a.store.feed[|store.feed| + k].txType == a.effective[k].txType
      && a.store.feed[|store.feed| + k].oldValue == a.effective[k].oldValue
      && a.store.feed[|store.feed| + k].newValue == a.effective[k].newValue
      && a.store.feed[|store.feed| + k].transactionId == |store.records| + k + 1
      && a.store.feed[|store.feed| + k].projectPHID == a.project.phid.value
      && a.store.feed[|store.feed| + k].time == now
    ensures a.store.projects == SaveRow(store.projects, a.project, p.project.id.None?)
    ensures a.store.edges == SaveEdges(store.edges, a.project.phid.value, p.remEdges, p.addEdges)
  {
    var saved := SavedProject(p.project, assignedId, assignedPhid);
    var phid := saved.phid.value;
    var records := Stamp(p.effective, user, saved.id.value, |store.records|);
    var stories := Stories(phid, records, now);
    Applied(saved,
            Store(SaveRow(store.projects, saved, p.project.id.None?),
                  SaveEdges(store.edges, phid, p.remEdges, p.addEdges),
                  store.records + records,
                  store.feed + stories),
            records)
  }

  /**
   * The commit of a non-empty batch. A duplicate-key failure re-runs the name
   * check, which throws the collision if it finds one; otherwise the original
   * exception is rethrown. Any other failure propagates unchanged.
   */
  function Commit(user: Phid, store: Store, p: Pending, outcome: CommitOutcome, now: int): (r: Result<Applied, Error>)
    ensures r.Ok? <==> outcome.Committed?
    ensures outcome.Committed? ==> r.value == Persist(user, store, p, outcome.assignedId, outcome.assignedPhid, now)
    ensures outcome.OtherFailure? ==> r == Err(Database(QueryException(outcome.message)))
    ensures outcome.DuplicateKey? ==>
      match ValidateName(p.project, outcome.rowsOnRecheck)
      case Some(c) => r == Err(NameCollision(c))
      case None => r == Err(Database(DuplicateKeyException(outcome.message)))
  {
    match outcome
    case Committed(assignedId, assignedPhid) => Ok(Persist(user, store, p, assignedId, assignedPhid, now))
    case DuplicateKey(message, rowsOnRecheck) =>
      (match ValidateName(p.project, rowsOnRecheck)
       case Some(c) => Err(NameCollision(c))
       case None => Err(Database(DuplicateKeyException(message))))
    case OtherFailure(message) => Err(Database(QueryException(message)))
  }

  /** The loop part of `applyTransactions`: the acting-user check, the author stamp and the fold. */
  function Prepare(env: Env, actor: Option<Phid>, project: Project, txs: seq<Transaction>, store: Store): (r: Result<Pending, Error>)
    requires forall k :: 0 <= k < |txs| ==> WellTyped(txs[k])
    ensures actor.None? ==> r == Err(MissingUser)
    ensures r.Err? ==> r.error.MissingUser? || r.error.UnknownType? || r.error.NameCollision?
    ensures r.Err? && actor.Some? ==> CanFail(txs)
    ensures r.Ok? ==> actor.Some? && |r.value.effective| <= |txs|
    ensures r.Ok? ==> r.value.project.id == project.id && r.value.project.phid == project.phid
    ensures r.Ok? && project.id.None? ==> r.value.project.authorPHID == actor
    ensures r.Ok? && project.id.Some? ==> r.value.project.authorPHID == project.authorPHID
  {
    match actor
    case None => Err(MissingUser)
    case Some(user) => Fold(env, store, Start(user, project), txs)
  }

  /**
   * `applyTransactions`: the whole batch. An empty surviving batch returns
   * without touching the store; otherwise the batch is committed.
   */
  function ApplyTransactions(env: Env, actor: Option<Phid>, project: Project, txs: seq<Transaction>,
                             store: Store, outcome: CommitOutcome): (r: Result<Applied, Error>)
    requires forall k :: 0 <= k < |txs| ==> WellTyped(txs[k])
    ensures actor.None? ==> r == Err(MissingUser)
    ensures r.Ok? ==> actor.Some? && |r.value.effective| <= |txs|
    ensures r.Ok? && r.value.effective == [] ==> r.value.store == store
    ensures r.Ok? && r.value.effective != [] ==> outcome.Committed?
    ensures r.Ok? ==> r.value.store.records == store.records + r.value.effective
    ensures r.Ok? && project.id.None? ==> r.value.project.authorPHID == actor
    ensures r.Ok? ==> forall k :: 0 <= k < |r.value.effective| ==>
      r.value.effective[k].authorPHID == actor && r.value.effective[k].projectId == r.value.project.id
    ensures r.Err? && r.error.Database? ==>
      || (outcome.DuplicateKey? && r.error.exception == DuplicateKeyException(outcome.message))
      || (outcome.OtherFailure? && r.error.exception == QueryException(outcome.message))
    ensures outcome.DuplicateKey? && r.Ok? ==> r.value.effective == []
    ensures r.Err? && actor.Some? && outcome.Committed? ==> CanFail(txs)
    ensures r.Err? && actor.Some? && outcome.Committed? ==> Prepare(env, actor, project, txs, store).Err?
  {
    match Prepare(env, actor, project, txs, store)
    case Err(e) => Err(e)
    case Ok(p) =>
      if p.effective == [] then Ok(Applied(p.project, store, []))
      else Commit(actor.value, store, p, outcome, env.now)
  }

  /**
   * The feed `after` is `before` followed by one story per record of `a`, in
   * order, each naming the project and `user` and published at `now`.
   */
  predicate StoriesFor(before: seq<Story>, after: seq<Story>, a: Applied, user: Phid, now: int) {
    && |after| == |before| + |a.effective|
    && after[..|before|] == before
    && forall k :: 0 <= k < |a.effective| ==>
      var story := after[|before| + k];
      && a.project.phid.Some?
      && story.relatedPHIDs == [a.project.phid.value, user]
      && story.authorPHID == user
      && story.txType == a.effective[k].txType
      && story.oldValue == a.effective[k].oldValue
      && story.newValue == a.effective[k].newValue
      && a.effective[k].id == Some(story.transactionId)
      && story.projectPHID == a.project.phid.value
      && story.time == now
  }

  /**
   * The feed after `applyTransactions`: the earlier stories, then one story
   * per saved transaction, in order, naming the project and the acting user.
   */
  lemma StoriesPerSurvivor(env: Env, actor: Option<Phid>, project: Project, txs: seq<Transaction>,
                           store: Store, outcome: CommitOutcome, a: Applied)
    requires forall k :: 0 <= k < |txs| ==> WellTyped(txs[k])
    requires ApplyTransactions(env, actor, project, txs, store, outcome) == Ok(a)
    ensures actor.Some? && StoriesFor(store.feed, a.store.feed, a, actor.value, env.now)
  {
    if a.effective == [] {
      assert a.store.feed[..|store.feed|] == store.feed;
    } else {
      var p := Prepare(env, actor, project, txs, store).value;
      assert a == Persist(actor.value, store, p, outcome.assignedId, outcome.assignedPhid, env.now);
    }
  }
}

=== FILE: projects.dfy ===
/**
 * The entities the project editor works on: projects, project transactions,
 * feed stories, the errors the editor throws, and the abstract storage it
 * writes to (project rows, member edges, transaction records, the feed).
 */
module Projects {
  import opened Outcomes
  import opened PhpArrays

  /** A PHID, the global object identifier (users, projects). */
  type Phid = string

  /** A saved project's row id; auto-increment ids start at 1, so a saved id is never falsy. */
  type ProjectId = x: int | 1 <= x witness 1

  /**
   * A project as the editor sees it. `id` and `phid` are absent until the
   * first save; `memberPHIDs` is the member list last attached to the object.
   */
  datatype Project = Project(
    id: Option<ProjectId>,
    phid: Option<Phid>,
    name: string,
    slug: string,
    status: int,
    authorPHID: Option<Phid>,
    memberPHIDs: seq<Phid>)

  /** The transaction types the editor dispatches on; any other type string is unknown. */
  datatype TxType = TypeName | TypeStatus | TypeMembers | TypeOther(tag: string)

  /** A transaction's old or new value; `Null` before the editor sets the old value. */
  datatype Value = Null | Text(text: string) | Code(code: int) | Phids(items: seq<Phid>)

  /** One requested change to a project, and once saved, its audit record. */
  datatype Transaction = Transaction(
    txType: TxType,
    oldValue: Value,
    newValue: Value,
    authorPHID: Option<Phid>,
    projectId: Option<ProjectId>,
    id: Option<nat>)

  /** A transaction as a caller builds it: only a type and a new value. */
  function NewTransaction(txType: TxType, newValue: Value): (t: Transaction)
    ensures t.txType == txType && t.newValue == newValue
    ensures t.oldValue == Null && t.authorPHID.None? && t.projectId.None? && t.id.None?
  {
    Transaction(txType, Null, newValue, None, None, None)
  }

  /** The new value has the shape its type's setter expects: a name string, a status code, a PHID list. */
  predicate WellTyped(t: Transaction) {
    match t.txType
    case TypeName => t.newValue.Text?
    case TypeStatus => t.newValue.Code?
    case TypeMembers => t.newValue.Phids?
    case TypeOther(_) => true
  }

  /** A project feed story: the story data, author, related PHIDs and story time. */
  datatype Story = Story(
    projectPHID: Phid,
    transactionId: nat,
    txType: TxType,
    oldValue: Value,
    newValue: Value,
    authorPHID: Phid,
    relatedPHIDs: seq<Phid>,
    time: int)

  /**
   * The persistent state the editor reads and writes: project rows in storage
   * order, the project-member edges by project PHID, the saved transaction
   * records (their ids are their 1-based positions) and the published feed.
   */
  datatype Store = Store(
    projects: seq<Project>,
    edges: map<Phid, seq<Phid>>,
    records: seq<Transaction>,
    feed: seq<Story>)

  /** The reason a project name is refused. */
  datatype Collision =
    | DegenerateName
    | TooSimilar(name: string, otherName: string, otherId: ProjectId)

  /** The database exceptions a commit can raise. */
  datatype DbException = DuplicateKeyException(message: string) | QueryException(message: string)

  /** Everything `applyTransactions` can throw. */
  datatype Error =
    | MissingUser
    | UnknownType(tag: string)
    | NameCollision(collision: Collision)
    | Database(exception: DbException)

  /**
   * How the database answers the commit of one batch: it succeeds (assigning
   * the row id and PHID a not-yet-saved project receives), fails on a unique
   * key (`rowsOnRecheck` is the project table a re-check then reads), or fails
   * otherwise.
   */
  datatype CommitOutcome =
    | Committed(assignedId: ProjectId, assignedPhid: Phid)
    | DuplicateKey(message: string, rowsOnRecheck: seq<Project>)
    | OtherFailure(message: string)

  /** The member PHIDs stored for a project; a project without a PHID has none. */
  function StoredMembers(store: Store, project: Project): (r: seq<Phid>)
    ensures project.phid.None? ==> r == []
    ensures project.phid.Some? && project.phid.value in store.edges ==> r == store.edges[project.phid.value]
  {
    match project.phid
    case None => []
    case Some(p) => EdgesOf(store.edges, p)
  }

  /** The member list stored under a project PHID, empty when there is none. */
  function EdgesOf(edges: map<Phid, seq<Phid>>, phid: Phid): seq<Phid> {
    if phid in edges then edges[phid] else []
  }

  /**
   * The member edges after removing `rem` and then adding `add` for one
   * project: as a set, the current members minus `rem` plus `add`.
   */
  function EditEdges(current: seq<Phid>, rem: seq<Phid>, add: seq<Phid>): (r: seq<Phid>)
    ensures forall x :: x in r <==> (x in current && x !in rem) || x in add
    ensures Distinct(r)
  {
    Unique(Without(current, rem) + add)
  }

  /**
   * Writes `saved` to the project table: an insert appends a row, an update
   * overwrites the rows that carry the same id and leaves every other row alone.
   */
  function SaveRow(rows: seq<Project>, saved: Project, insert: bool): (r: seq<Project>)
    ensures insert ==> r == rows + [saved]
    ensures !insert ==> |r| == |rows|
    ensures !insert ==> forall k :: 0 <= k < |rows| && rows[k].id != saved.id ==> r[k] == rows[k]
    ensures !insert ==> forall k :: 0 <= k < |rows| && rows[k].id == saved.id ==> r[k] == saved
  {
    if insert then rows + [saved]
    else seq(|rows|, k requires 0 <= k < |rows| => if rows[k].id == saved.id then saved else rows[k])
  }
}
